=== FILE: README.md ===
# Notification pipeline model

A Dafny model of the client-side notification service of a factory-monitoring
mobile app (`src/services/notificationService.ts`). The service keeps one
server-sent-event stream open, filters keep-alive frames, turns every other
well-formed frame on a listened channel into a notification record at the head
of an in-memory list, announces
each new record through a native local notification or a browser
notification, and reconnects with exponential backoff when the stream fails.

The model is functional: immutable datatypes for the payload, the record, the
connection state and the list, and pure transition functions.

- `options.dfy`: `Option`. It stands for JavaScript `undefined` and for "not found".
- `json.dfy`: decoded JSON values. It covers property reads, JavaScript truthiness and the
  `{ ...data, type: t }` spread.
- `classifier.dfy`: `isHeartbeat`. Its result is a verdict, or the exception it throws on `null`.
- `records.dfy`: the notification record and `addNotification`'s construction of it.
- `store.dfy`: the list and its operations, with lemmas about which record is found first.
- `frames.dfy`: the stream's message handler and its named-event listeners.
- `presentation.dfy`: the native and browser presentation paths. Both are described by the
  data they would hand to the platform.
- `connection.dfy`: `connect`, `disconnect`, `onopen`, `onerror`, `handleReconnect` and
  timer firing. It also has the invariant these keep and the backoff sequence.
- `service.dfy`: all of the above as one event-driven state machine, plus a `Run` method over
  event sequences.

These things are parameters: the JSON decoder (`JSON.parse`, `None` when it throws), the id
`generateId` returns, the clock-derived `time`/`date` strings, and the host's answers (platform,
browser support, permission, answer to a permission request).

Where the code and its design description disagree, the model follows the code:

- Payload fields are not validated. Any non-null decoded value that `isHeartbeat` classifies as
  not control becomes a record. That includes numbers, arrays and non-marker strings, with
  `title`/`message` left `undefined`. A truthy non-string `id` or `type` is stored as is. So
  record fields are JSON values, and lookups compare `id` with `JStr(key)`, as `===` does.
- Ids are not unique. Lookups act on the first, newest match.
- `connect` checks whether a transport object exists, not whether it is connected. `onerror`
  does not close the transport.
- Only `onopen` resets the retry counter. An explicit `connect` after the retries are exhausted
  does not restart the backoff.
- `isHeartbeat(null)` throws. The surrounding `catch` swallows it, so a `null` payload is dropped
  like a parse failure.
- The handlers are set as `onopen`/`onerror` properties. The stream dispatches a server frame
  named "open" or "error" under that name, so such a frame runs the same handler as the
  transport's own event: it resets the retry counter, or clears the flag and schedules a retry.

## Model

| member | source | states |
|---|---|---|
| `Classifier.IsHeartbeat` | src/services/notificationService.ts:333-344 | Throws exactly for `null`. A string is a control message iff it is "heartbeat" or "ping". An object is one iff its `type` or `message` is one of those strings. Every other value is not. |
| `Classifier.SixControlForms` | src/services/notificationService.ts:695-711 | All six forms in the source's heartbeat test list are recognised as control messages. |
| `Classifier.RawControlIff` | src/services/notificationService.ts:333-336 | A raw frame string is a control message iff it equals one of the two markers. |
| `Classifier.NearMissesAreNotControl` | src/services/notificationService.ts:333-344 | These are not control messages: a different capitalisation, a marker under another key, a non-marker message, and a marker inside an array. |
| `Json.Get` | src/services/notificationService.ts:495-504 | A property read yields a value iff the payload is an object owning that key, and then yields that key's value. |
| `Json.Override` | src/services/notificationService.ts:422 | The spread `{ ...data, type: t }` reads `t` at `type` and reads every other named key as `data` does. |
| `Records.NewRecord` | src/services/notificationService.ts:494-505 | The new record is unread, with truthy id and type. Its id is `data.id` when that is truthy, otherwise the fresh id. Its type is `data.type` when truthy, otherwise "info". Title, message, details, actions, related info and stamp are copied. |
| `Records.ForcedKindChangesOnlyKind` | src/services/notificationService.ts:408-446 | On a channel that forces the type, the record equals the one the plain payload gives, except for its type. |
| `Store.FindIndex` | src/services/notificationService.ts:613 | Returns the first index holding the id: no earlier record holds it. Returns none iff no record holds it. |
| `Store.Add` | src/services/notificationService.ts:508 | The new record is at index 0, the old list follows unchanged, and the length grows by one. |
| `Store.GetById` | src/services/notificationService.ts:625-627 | Finds a record iff some record has the id. The record found has that id and is the first record holding it: no earlier record has the id. |
| `Store.MarkAsRead` | src/services/notificationService.ts:597-602 | The length is unchanged. An absent id changes nothing. Otherwise only the first match changes, and only its read flag. |
| `Store.MarkAllAsRead` | src/services/notificationService.ts:605-609 | The length is unchanged. Every record equals its old self with `read` set. |
| `Store.Remove` | src/services/notificationService.ts:612-617 | The length shrinks by one iff the id is present. The result is the list with exactly the first match cut out, order kept, as a multiset. An absent id changes nothing. |
| `Store.ClearAll` | src/services/notificationService.ts:620-622 | The list is empty afterwards. |
| `Store.Unread` | src/services/notificationService.ts:631 | The filter keeps only unread records drawn from the list and is no longer than it. |
| `Store.UnreadCount` | src/services/notificationService.ts:630-632 | The unread count never exceeds the list length. |
| `Store.UnreadCountIsPositions` | src/services/notificationService.ts:630-632 | The unread count equals the number of positions holding an unread record. |
| `Store.AddUnreadCount` | src/services/notificationService.ts:493-508 | Adding a record raises the unread count by one iff the record is unread. |
| `Store.AddShadows` | src/services/notificationService.ts:625-627 | A newly added record shadows every older record with the same id in lookups. |
| `Store.MarkAsReadThenGet` | src/services/notificationService.ts:597-602 | After `markAsRead(id)`, the lookup finds a record iff one existed before. It is the same first match, now read. |
| `Store.MarkAsReadUnreadCount` | src/services/notificationService.ts:597-602 | `markAsRead` lowers the unread count by one iff the first match was unread. Otherwise the count is unchanged. |
| `Store.MarkAllAsReadClearsUnread` | src/services/notificationService.ts:605-609 | After `markAllAsRead` the unread count is 0 and every record is read. |
| `Store.MarkAllAsReadIdempotent` | src/services/notificationService.ts:605-609 | Marking all read twice equals marking once. Every id stays in place. |
| `Store.ClearAllEmpties` | src/services/notificationService.ts:620-622 | After `clearAll` the list is empty and the unread count is 0. |
| `Store.RemoveUnreadCount` | src/services/notificationService.ts:612-617 | Removing lowers the unread count by one iff the removed first match was unread. |
| `Store.RemoveUniqueIdGone` | src/services/notificationService.ts:612-617 | When at most one record holds the id, no record holds it after removal. |
| `Frames.HandlerFor` | src/services/notificationService.ts:354-455 | Exactly the default, "notification", "alert" and "success" event types ingest. Only "alert" and "success" force a type: "warning" and "success" respectively. A frame named "open" or "error" reaches the `onopen` or `onerror` handler, and exactly those two do. |
| `Frames.Payload` | src/services/notificationService.ts:422 | The payload passed on is never `null`. |
| `Frames.Process` | src/services/notificationService.ts:361-446 | A record is added iff four things hold: the event type has an ingesting listener, the raw frame is not a marker, decoding succeeds, and the decoded value is classified as not control without throwing. The record is unread with a truthy id. Its type is "warning" on "alert", "success" on "success", and the payload's type or "info" otherwise. Its id is the payload's when truthy. The record is exactly `NewRecord` of the payload with the channel's forced type spread over it, the fresh id and the clock's stamp, so title, message, details, actions, related info and the fresh-id fallback all come from the frame. |
| `Frames.Apply` | src/services/notificationService.ts:375 | An added record goes to the head of the list. Any other outcome leaves the list as it was. |
| `Frames.FrameEffect` | src/services/notificationService.ts:361-446 | A frame either leaves list and unread count unchanged, or adds one unread record at the head with the old list after it and the unread count one higher. |
| `Frames.ControlAndMalformedDropped` | src/services/notificationService.ts:361-379 | Raw markers, undecodable frames, `null` payloads and decoded control messages leave the list unchanged. |
| `Frames.SilentChannels` | src/services/notificationService.ts:448-455 | No record is added for events on "heartbeat", "ping", "open", "error" or any unlistened type. |
| `Frames.LowStockAlert` | src/services/notificationService.ts:408-426 | An "alert" frame with a title and message and no id becomes an unread warning at the head, with a fresh id and the copied text. |
| `Presentation.UpperChar` | src/services/notificationService.ts:306 | Lower-case ASCII letters map to their upper-case letter. Other characters are unchanged. |
| `Presentation.Upper` | src/services/notificationService.ts:306 | Upper-casing maps each character by `UpperChar`, keeping the length. |
| `Presentation.SummaryText` | src/services/notificationService.ts:306 | The summary exists iff the type is a string. It is the type upper-cased character by character, followed by " Alert". |
| `Presentation.SummaryOfLowercase` | src/services/notificationService.ts:306 | A lower-case ASCII type yields its upper-case form followed by " Alert". |
| `Presentation.WarningSummary` | src/services/notificationService.ts:306 | A warning record's summary is "WARNING Alert". |
| `Presentation.LargeBody` | src/services/notificationService.ts:305 | The long body is the details when they are truthy, and the message otherwise. |
| `Presentation.SendNative` | src/services/notificationService.ts:290-330 | The send is skipped iff initialisation has not completed. Once initialised, the send fails iff `parseInt` cannot convert the id to a string (an object with an own `toString` key, or an array holding one) or the type is not a string; otherwise it schedules. The schedule carries title, body = message, the long-body fallback, id and type in its payload, the summary `SummaryText` gives for the type, a 5 s delay and the "factory-alerts" channel. |
| `Presentation.BrowserSpecFor` | src/services/notificationService.ts:528-539 | The browser notification shows title and message. Its de-duplication tag and data carry the record id, and the data carries the type. |
| `Presentation.ShowBrowser` | src/services/notificationService.ts:520-575 | Shown iff notifications are supported and permission is either granted, or undecided and granted on request. Only an unsupported browser gives `Unsupported`; a supported browser that does not show gives `Refused`. |
| `Presentation.Present` | src/services/notificationService.ts:275-287 | A native platform takes the native path and the web takes the browser path. |
| `Presentation.ShadowedToStringFails` | src/services/notificationService.ts:296-329 | An id object with its own `toString` key, alone or inside an array, makes `parseInt(id)` throw, so a well-typed native send schedules nothing. |
| `Presentation.GateOnlyNative` | src/services/notificationService.ts:275-294 | The initialisation gate blocks only native sends. A web send is the same before and after initialisation. |
| `Connection.ClearHandle` | src/services/notificationService.ts:467-470 | Clearing drops the held handle, and exactly the pending timers with that handle stop being pending. With no handle it changes nothing. Only the handle and the pending timers can change. |
| `Connection.WithoutRemoves` | src/services/notificationService.ts:467-470 | Cancelling a handle removes exactly the pending timers with that id and keeps every other one. |
| `Connection.Disconnect` | src/services/notificationService.ts:459-471 | Afterwards there is no transport and no handle. A transport that was present leaves `isConnected` false. Exactly the held timer is cancelled; every other pending timer stays pending. The url, the attempts counter and the timer supply are kept. |
| `Connection.Connect` | src/services/notificationService.ts:347-353 | A transport exists and the url is stored. Attempts are untouched. A transport that existed is torn down first, so the result is not connected and holds no handle. Without one, the flag, handle and timers are kept. |
| `Connection.ConnectDisconnectsFirst` | src/services/notificationService.ts:347-353 | `connect(url)` over a transport equals `disconnect()` followed by storing the new transport and url. Without a transport, only those two fields change. |
| `Connection.OnOpen` | src/services/notificationService.ts:355-359 | With a transport, the state is connected and attempts are 0, nothing else changes. Without one, nothing changes. |
| `Connection.NextTimer` | src/services/notificationService.ts:474-481 | A timer is due iff attempts are below 5. Its delay is 2^attempts * 1000 ms. |
| `Connection.HandleReconnectAsWritten` | src/services/notificationService.ts:474-490 | At the ceiling nothing changes. Below it, attempts grow by one, the timer supply advances by one and the handle is overwritten with the new timer. The new timer is appended to the timers already pending, none of which is cleared. Transport, flag and url never change. |
| `Connection.HandleReconnect` | src/services/notificationService.ts:474-490 | At the ceiling nothing changes. Below it, attempts grow by one, the timer supply advances by one, and the new backoff timer is pending and held. The pending timers afterwards are exactly the new one and those pending before except the one previously held. Transport, flag and url never change. |
| `Connection.OnErrorAsWritten` | src/services/notificationService.ts:381-385 | The source's `onerror`: with a transport, `isConnected` becomes false and the transport is kept. Below the ceiling, the attempts grow by one, the handle becomes the new timer, and the pending timers are the old ones with the backoff timer appended. At the ceiling only the flag changes; without a transport nothing does. Transport and url never change. |
| `Connection.OnError` | src/services/notificationService.ts:381-385 | With a transport, `isConnected` becomes false and the transport is kept. Below the ceiling, the attempts grow by one and the backoff timer is scheduled. At the ceiling only the flag changes; without a transport nothing does. Transport and url never change. |
| `Connection.FireTimer` | src/services/notificationService.ts:485-489 | A timer that is not pending does nothing. A pending one reconnects to the stored url with the attempts kept, or leaves the connection fields alone when no url is stored. |
| `Connection.FireTimerReconnects` | src/services/notificationService.ts:485-489 | A pending timer leaves the pending set, then `connect(url)` runs iff a url is stored. |
| `Connection.InitialValid` | src/services/notificationService.ts:44-50 | The initial fields satisfy the invariant. |
| `Connection.DisconnectCancelsAll` | src/services/notificationService.ts:459-471 | From any valid state, `disconnect` leaves no transport, no connection, no handle and no pending timer. |
| `Connection.DisconnectIdempotent` | src/services/notificationService.ts:459-471 | From any state, disconnecting twice equals disconnecting once. |
| `Connection.ConnectValid` | src/services/notificationService.ts:347-353 | `connect` keeps the invariant. |
| `Connection.OnOpenValid` | src/services/notificationService.ts:355-359 | `onopen` keeps the invariant. |
| `Connection.OnErrorValid` | src/services/notificationService.ts:474-490 | With the corrected `handleReconnect`, `onerror` keeps the invariant. Below the ceiling exactly one timer is pending afterwards, with delay 2^attempts * 1000. The source's own `onerror` does not keep it (`Connection.AsWrittenBreaksValid`). |
| `Connection.FireTimerValid` | src/services/notificationService.ts:485-489 | A timer firing keeps the invariant. |
| `Connection.RetryCycle` | src/services/notificationService.ts:474-490 | Below the ceiling, a failure followed by its timer firing reconnects to the same url with one more attempt, and schedules exactly `BackoffDelay(attempts)`. |
| `Connection.CeilingFailure` | src/services/notificationService.ts:381-385 | At the ceiling, a failure keeps the invariant, the transport, the url and the attempts, and schedules nothing. |
| `Connection.FailureDelaysSchedule` | src/services/notificationService.ts:474-490 | k consecutive failures, each retried, schedule what the one-failure-at-a-time `Schedule` predicts from the attempts counter. |
| `Connection.ScheduleBackoffs` | src/services/notificationService.ts:474-481 | That schedule in closed form: the first min(k, 5 - a) backoff delays from attempt a. |
| `Connection.FailureDelaysBackoff` | src/services/notificationService.ts:474-490 | k consecutive failures from a attempts, each retried, schedule the delays 2^(a+i) * 1000 ms. There are min(k, 5 - a) of them and none after the ceiling. |
| `Connection.SixFailuresFromOpen` | src/services/notificationService.ts:474-490 | From a fresh open connection, six failures schedule exactly 1000, 2000, 4000, 8000 and 16000 ms. |
| `Connection.OnErrorAsWrittenAgrees` | src/services/notificationService.ts:381-385 | With no timer pending, the source's `onerror` and the corrected one give the same state. |
| `Connection.FailureDelaysAsWrittenAgree` | src/services/notificationService.ts:474-490 | From any state with nothing pending, k failures each retried schedule the same delays under the source's `onerror` as under the corrected one. |
| `Connection.FailureDelaysAsWrittenBackoff` | src/services/notificationService.ts:474-490 | For the source as written: from a valid state with nothing pending, k failures each retried schedule the first min(k, 5 - a) backoff delays 2^(a+i) * 1000 ms. |
| `Connection.SixFailuresFromOpenAsWritten` | src/services/notificationService.ts:474-490 | For the source as written: from a fresh open connection, six failures schedule exactly 1000, 2000, 4000, 8000 and 16000 ms. |
| `Connection.AsWrittenBreaksValid` | src/services/notificationService.ts:474-490 | As written, two failures before the first timer fires leave two timers pending, which breaks the invariant. |
| `Connection.ExhaustedUntilOpen` | src/services/notificationService.ts:347-359 | With retries exhausted, `connect` followed by a failure schedules nothing. Only `onopen` resets the counter. |
| `Connection.OrphanedTimerReconnects` | src/services/notificationService.ts:485 | As written: connect, two failures, then disconnect leave the first timer pending. When it fires, it reconnects to the stored url. |
| `Connection.DoubleFailureThenDisconnect` | src/services/notificationService.ts:459-490 | With the corrected reconnect, the same sequence leaves no timer pending. |
| `Service.Init` | src/services/notificationService.ts:109-115 | The constructed service holds the seed list, is not initialised, and its connection is exactly the field defaults of lines 44-50: no transport, not connected, no attempts, no handle, nothing pending. |
| `Service.Step` | src/services/notificationService.ts:347-471 | Only a frame arriving on a live transport triggers a presentation. Which operation each event runs is stated by `Service.StepOperation` and `Service.StepFrameRoutes`. |
| `Service.StepOperation` | src/services/notificationService.ts:347-471 | Each connection call, transport callback, timer and list call runs exactly its operation (`connect`, `disconnect`, `onopen`, `onerror`, the timer callback, the gate, `markAsRead`, `markAllAsRead`, `removeNotification`, `clearAll`) and changes nothing else. A frame without a transport does nothing. Only frames present anything. |
| `Service.StepFrameRoutes` | src/services/notificationService.ts:354-446 | On a live transport, a frame named "open" acts exactly as the transport opening and one named "error" exactly as a transport failure. Any other frame adds what its listener produces, and presents iff a record was added. |
| `Service.StepValid` | src/services/notificationService.ts:347-490 | With the corrected `handleReconnect`, every event keeps the connection invariant. |
| `Service.StepFrame` | src/services/notificationService.ts:493-517 | Connection events leave the list alone. List calls and frames other than "open" and "error" leave the connection and gate alone. A presentation happens iff a frame added a record. The record added is unread and goes on top of the old list, and the presentation is `Present` of that record under the step's host and gate. A step that presents nothing and is no list call leaves the list unchanged. |
| `Service.NoReconnectAfterDisconnect` | src/services/notificationService.ts:459-471 | With the corrected `handleReconnect`, after `disconnect` no timer firing restores the transport. The source as written fails this (`Connection.OrphanedTimerReconnects`). |
| `Service.StoreGrowth` | src/services/notificationService.ts:493-508 | Only a frame lengthens the list, and by at most one record. |
| `Service.Run` | src/services/notificationService.ts:347-517 | Each event is handled with its own environment (decoder, fresh id, clock, host). With the corrected `handleReconnect`, the connection invariant holds throughout. The presentations form a `Log` below the number of events: each comes from a distinct frame, in order, and is `Present` of the unread record that frame added, under the gate `GateBefore` gives for that step, i.e. set iff it started set or an `InitCompleted` came earlier (spelled out per presentation by `Service.LogEach`, counted against the frames by `Service.LogBound`). Each presentation is `Sourced`: its record is exactly the one `Frames.Process` builds from its frame with that step's decoder, fresh id and clock. When no event changes the list directly, the list is exactly the presented records, newest first, on top of the initial list, so each added record is presented once. The list grows by at most one record per frame. |
| `Service.Advance` | src/services/notificationService.ts:493-517 | One event: the invariant is kept, and the gate is set iff it was set or the event is `InitCompleted`. A presentation comes back only for a frame. It carries the unread record that frame's listener built (`Frames.Process` on the step's decoder, fresh id and clock), now on top of the list. Its gate is the gate before the step, and its outcome is what `Present` gives under the step's host and that gate. Otherwise the list is unchanged unless the event is a list call. |
| `Service.Extend` | src/services/notificationService.ts:347-517 | One event of a run keeps what `Run` maintains: the connection invariant, the list bound against the frames seen, the gate as `GateBefore` gives it, the `Log` and `Sourced` properties of the presentations, and the list as the presented records over the initial list when no list call came before. |
| `Service.SourcedSnoc` | src/services/notificationService.ts:493-508 | A presentation whose record its frame's listener built extends a log in which every record was built that way. |
| `Service.LogEach` | src/services/notificationService.ts:493-517 | A presentation log gives each presentation its frame, record and outcome, with steps strictly increasing. |
| `Service.LogBound` | src/services/notificationService.ts:493-517 | A presentation log holds no more presentations than there are frame events below its bound: `addNotification`, and so the native send, runs at most once per frame. |

## Left out

- The `EventSource` transport, `setTimeout`/`clearTimeout` and the browser `Notification` object
  are I/O. They appear only as events and timer records.
- The `initialize*` methods (lines 118-272) are foreign asynchronous platform calls. They cover
  permission prompts, listener registration, and the push-received listener that also calls
  `addNotification`. Only their completion is kept, as the `InitCompleted` event that sets the gate.
- `generateId`, `formatTime` and `formatDate` depend on the clock and on randomness. They are
  parameters.
- The numeric local id `parseInt(id) || random` uses randomness and is not modelled. Only whether
  `parseInt` throws is kept (`Json.ToStringThrows`).
- The ISO timestamp in the presentation payload, the icon, sound and colour constants, and the
  10-second auto-close timer's effect are not modelled.
- Router navigation on notification taps (lines 175, 237-241, 548) is not part of this model.
  `src/router/index.ts` and `capacitor.config.ts` are static configuration.
- The mock seed data is not modelled; `Service.Init` takes any seed list.
- Vue reactivity, logging, and the demo/test helpers (lines 680-817) are not modelled. The
  heartbeat test list is used only as evidence for `Classifier.SixControlForms`.
- Presentation.Upper: keeps the length of the type. `toUpperCase` maps some characters to several ("ß" to "SS"), so a non-ASCII type's summary can differ from the source's.
- Presentation.UpperChar: upper-cases ASCII letters only. `toUpperCase` also maps non-ASCII
  letters, sometimes to several characters.
- Json.Override: does not represent the index keys ("0", "1", ...) that spreading a string or
  array copies, because the pipeline never reads them.
- Presentation.ShowBrowser: an exception thrown by the `Notification` constructor is not
  modelled. That includes the TypeError from converting a title, message or id that is an object
  with an own `toString` key.
- Connection.Connect: always opens a transport. In the source, `new EventSource(url)` throws for a url it cannot parse. By then the old transport is closed and the url is stored, `eventSource` stays null, and the exception escapes `connect`, also from a timer callback. Url validity is not modelled.
- Connection.OnErrorValid: holds only with the corrected `handleReconnect`. The source's `onerror` can leave two timers pending (`Connection.AsWrittenBreaksValid`).
- Service.StepValid: holds only for the corrected machine, for the same reason.
- Service.NoReconnectAfterDisconnect: holds only for the corrected machine. As written, an orphaned timer reconnects after `disconnect` (`Connection.OrphanedTimerReconnects`).
- Service.Run: its connection invariant holds only for the corrected machine. The list claim covers runs without direct list calls; with them, only the per-frame bound is stated.
- Connection.HandleReconnect: the rest of the model uses this corrected version, which clears
  the held timer before scheduling a new one. The source's behaviour is
  `Connection.HandleReconnectAsWritten` (see Findings).

## Findings

| source | as written | input that shows it | evidently intended | confidence | as-written member | corrected member |
|---|---|---|---|---|---|---|
| src/services/notificationService.ts:485 | `handleReconnect` stores the new timer in `reconnectInterval` without clearing the timer that handle held. `disconnect` (lines 467-470) can then cancel only the newest timer. | `connect(u)`, then `onerror` twice before the 1 s timer fires, then `disconnect()`. The 1 s timer stays pending, and when it fires it calls `connect(u)` after the explicit disconnect. | `disconnect` cancels every pending reconnect, so nothing reconnects without a new `connect`. | medium; not executed (needs the transport to report two errors within one backoff delay) | `Connection.HandleReconnectAsWritten`, `Connection.OrphanedTimerReconnects` | `Connection.HandleReconnect`, `Connection.DisconnectCancelsAll` |

=== FILE: classifier.dfy ===
/**
 * The control-message classifier: `isHeartbeat` decides whether a frame, raw
 * or decoded, is a keep-alive rather than a notification.
 */
module Classifier {
  import opened Options
  import opened Json

  /** The two control markers. */
  const Markers: set<string> := {"heartbeat", "ping"}

  /** The outcome of `isHeartbeat`: a verdict, or the exception it raises. */
  datatype Check = Verdict(control: bool) | Throws

  /** The property `key` of an object holds one of the markers as a string. */
  predicate MarkerField(fields: map<string, Json>, key: string) {
    key in fields && fields[key].JStr? && fields[key].s in Markers
  }

  /**
   * `isHeartbeat(data)`, evaluated left to right with JavaScript's
   * short-circuiting: strict equality with either marker string, then, for
   * anything whose `typeof` is 'object', the `type` and `message` properties.
   * `null` has `typeof` 'object', so reading `null.type` throws.
   */
  function IsHeartbeat(data: Json): (r: Check)
    ensures r.Throws? <==> data.JNull?
    ensures data.JStr? ==> r == Verdict(data.s in Markers)
    ensures data.JObj? ==> r == Verdict(MarkerField(data.fields, "type") || MarkerField(data.fields, "message"))
    ensures data.JBool? || data.JNum? || data.JArr? ==> r == Verdict(false)
  {
    if data == JStr("heartbeat") || data == JStr("ping") then Verdict(true)
    else if TypeofObject(data) then
      if data.JNull? then Throws
      else
        var t := Get(data, "type");
        var m := Get(data, "message");
        Verdict(t == Some(JStr("heartbeat")) || t == Some(JStr("ping"))
                || m == Some(JStr("heartbeat")) || m == Some(JStr("ping")))
    else Verdict(false)
  }

  /** The check applied to an undecoded frame: `event.data` is always a string. */
  predicate RawIsControl(frame: string) {
    IsHeartbeat(JStr(frame)) == Verdict(true)
  }

  /** The six control forms are all recognised. */
  lemma SixControlForms()
    ensures IsHeartbeat(JStr("heartbeat")) == Verdict(true)
    ensures IsHeartbeat(JStr("ping")) == Verdict(true)
    ensures IsHeartbeat(JObj(map["type" := JStr("heartbeat")])) == Verdict(true)
    ensures IsHeartbeat(JObj(map["type" := JStr("ping")])) == Verdict(true)
    ensures IsHeartbeat(JObj(map["message" := JStr("heartbeat")])) == Verdict(true)
    ensures IsHeartbeat(JObj(map["message" := JStr("ping")])) == Verdict(true)
  {
  }

  /** A raw frame is a control message exactly when it is one of the two markers. */
  lemma RawControlIff(frame: string)
    ensures RawIsControl(frame) <==> frame == "heartbeat" || frame == "ping"
  {
  }

  /** Other string fields, or markers under other keys, are not control messages. */
  lemma NearMissesAreNotControl()
    ensures IsHeartbeat(JStr("Heartbeat")) == Verdict(false)
    ensures IsHeartbeat(JObj(map["title" := JStr("ping")])) == Verdict(false)
    ensures IsHeartbeat(JObj(map["type" := JStr("info"), "message" := JStr("pong")])) == Verdict(false)
    ensures IsHeartbeat(JArr([JStr("ping")])) == Verdict(false)
  {
  }
}

=== FILE: connection.dfy ===
/**
 * The connection manager's state machine: `connect`, `disconnect`, the
 * transport's `onopen` and `onerror` callbacks, `handleReconnect`'s
 * exponential backoff, and the firing of a reconnect timer.
 */
module Connection {
  import opened Options

  /** `maxReconnectAttempts`. */
  const MaxReconnectAttempts: nat := 5

  /** A one-shot reconnect timer: its handle and its delay in milliseconds. */
  datatype Timer = Timer(id: nat, delay: nat)

  /**
   * The service's connection fields. `transport` is `eventSource !== null`,
   * `handle` is `reconnectInterval` (the handle of the last timer scheduled,
   * or `null`), `pending` the timers that were scheduled and have neither
   * fired nor been cleared, and `nextTimer` the handle the runtime gives the
   * next timer.
   */
  datatype Conn = Conn(
    transport: bool,
    connected: bool,
    url: string,
    attempts: nat,
    handle: Option<nat>,
    pending: seq<Timer>,
    nextTimer: nat)

  /** The state a freshly constructed service starts in. */
  const Initial: Conn := Conn(false, false, "", 0, None, [], 1)

  /** `Math.pow(2, n)`. */
  function Pow2(n: nat): (r: nat)
    ensures r >= 1
  {
    if n == 0 then 1 else 2 * Pow2(n - 1)
  }

  /** The backoff delay for the attempt numbered `attempts`, in milliseconds. */
  function BackoffDelay(attempts: nat): nat {
    Pow2(attempts) * 1000
  }

  /** The pending timers other than the one with handle `id`. */
  function Without(ts: seq<Timer>, id: nat): (r: seq<Timer>)
    ensures |r| <= |ts|
  {
    if |ts| == 0 then []
    else if ts[0].id == id then Without(ts[1..], id)
    else [ts[0]] + Without(ts[1..], id)
  }

  /** `clearTimeout(reconnectInterval); reconnectInterval = null`, when a handle is held. */
  function ClearHandle(c: Conn): (r: Conn)
    ensures r.handle.None?
    ensures c.handle.None? ==> r == c
    ensures r.(handle := c.handle, pending := c.pending) == c
    ensures forall t :: t in r.pending <==> t in c.pending && (c.handle.None? || t.id != c.handle.value)
  {
    match c.handle
    case None => c
    case Some(h) =>
      WithoutRemoves(c.pending, h);
      c.(handle := None, pending := Without(c.pending, h))
  }

  /** `Without` drops exactly the timers with the given handle. */
  lemma {:induction false} WithoutRemoves(ts: seq<Timer>, id: nat)
    ensures forall t :: t in Without(ts, id) <==> t in ts && t.id != id
  {
    if |ts| > 0 {
      WithoutRemoves(ts[1..], id);
      assert ts == [ts[0]] + ts[1..];
    }
  }

  /**
   * `disconnect()`: closes and drops the transport if there is one (setting
   * `isConnected` false), then clears the held timer handle. The stored url
   * and the attempt counter are untouched.
   */
  function Disconnect(c: Conn): (r: Conn)
    ensures !r.transport && r.handle.None?
    ensures c.transport ==> !r.connected
    ensures !c.transport ==> r.connected == c.connected
    ensures r.url == c.url && r.attempts == c.attempts && r.nextTimer == c.nextTimer
    ensures forall t :: t in r.pending <==> t in c.pending && (c.handle.None? || t.id != c.handle.value)
  {
    var closed := if c.transport then c.(transport := false, connected := false) else c;
    ClearHandle(closed)
  }

  /**
   * `connect(url)`: disconnects first if a transport exists, stores `url` and
   * opens a new transport. It does not touch `isConnected` (only `onopen`
   * sets it) nor `reconnectAttempts` (only `onopen` resets it).
   */
  function Connect(c: Conn, url: string): (r: Conn)
    ensures r.transport && r.url == url
    ensures r.attempts == c.attempts && r.nextTimer == c.nextTimer
    ensures c.transport ==> !r.connected && r.handle.None?
    ensures !c.transport ==> r.connected == c.connected && r.handle == c.handle && r.pending == c.pending
  {
    var c1 := if c.transport then Disconnect(c) else c;
    c1.(transport := true, url := url)
  }

  /**
   * `connect(url)` on a live transport is `disconnect()` followed by storing
   * `url` and opening the new transport; on none it only does the latter.
   */
  lemma ConnectDisconnectsFirst(c: Conn, url: string)
    ensures c.transport ==> Connect(c, url) == Disconnect(c).(transport := true, url := url)
    ensures !c.transport ==> Connect(c, url) == c.(transport := true, url := url)
  {
  }

  /**
   * A pending timer that fires leaves the pending set and reconnects to the
   * stored url through `connect`; with no url stored it only disappears.
   */
  lemma FireTimerReconnects(c: Conn, id: nat)
    requires IsPending(c, id)
    ensures var rest := c.(pending := Without(c.pending, id));
      FireTimer(c, id) == if c.url != "" then Connect(rest, c.url) else rest
  {
  }

  /** `onopen`: the transport is up; the backoff starts over. */
  function OnOpen(c: Conn): (r: Conn)
    ensures c.transport ==> r.connected && r.attempts == 0
    ensures c.transport ==> r.(connected := c.connected, attempts := c.attempts) == c
    ensures !c.transport ==> r == c
  {
    if c.transport then c.(connected := true, attempts := 0) else c
  }

  /** The timer `handleReconnect` would schedule now, if any. */
  function NextTimer(c: Conn): (t: Option<Timer>)
    ensures t.Some? <==> c.attempts < MaxReconnectAttempts
    ensures t.Some? ==> t.value == Timer(c.nextTimer, BackoffDelay(c.attempts))
  {
    if c.attempts >= MaxReconnectAttempts then None
    else Some(Timer(c.nextTimer, BackoffDelay(c.attempts)))
  }

  /**
   * `handleReconnect()` as written: below the ceiling it schedules one timer
   * with delay `2^attempts * 1000`, increments the counter and stores the new
   * handle in `reconnectInterval`, overwriting the handle it held without
   * clearing that timer.
   */
  function HandleReconnectAsWritten(c: Conn): (r: Conn)
    ensures c.attempts >= MaxReconnectAttempts ==> r == c
    ensures c.attempts < MaxReconnectAttempts ==>
      r.attempts == c.attempts + 1 && r.handle == Some(c.nextTimer) && r.nextTimer == c.nextTimer + 1
      && r.pending == c.pending + [Timer(c.nextTimer, BackoffDelay(c.attempts))]
    ensures r.(attempts := c.attempts, handle := c.handle, pending := c.pending, nextTimer := c.nextTimer) == c
  {
    match NextTimer(c)
    case None => c
    case Some(t) =>
      c.(attempts := c.attempts + 1, handle := Some(t.id), pending := c.pending + [t],
         nextTimer := c.nextTimer + 1)
  }

  /**
   * `handleReconnect()` with the held timer cleared before the new one is
   * scheduled, so that `disconnect` can always cancel the pending reconnect.
   */
  function HandleReconnect(c: Conn): (r: Conn)
    ensures c.attempts >= MaxReconnectAttempts ==> r == c
    ensures c.attempts < MaxReconnectAttempts ==>
      r.attempts == c.attempts + 1 && r.handle == Some(c.nextTimer) && r.nextTimer == c.nextTimer + 1
      && Timer(c.nextTimer, BackoffDelay(c.attempts)) in r.pending
    ensures c.attempts < MaxReconnectAttempts ==> forall t :: t in r.pending <==>
      t == Timer(c.nextTimer, BackoffDelay(c.attempts)) || (t in c.pending && (c.handle.None? || t.id != c.handle.value))
    ensures r.(attempts := c.attempts, handle := c.handle, pending := c.pending, nextTimer := c.nextTimer) == c
  {
    match NextTimer(c)
    case None => c
    case Some(t) =>
      var c1 := ClearHandle(c);
      c1.(attempts := c.attempts + 1, handle := Some(t.id), pending := c1.pending + [t],
          nextTimer := c.nextTimer + 1)
  }

  /** `onerror` with the source's `handleReconnect`. */
  function OnErrorAsWritten(c: Conn): (r: Conn)
    ensures c.transport ==> !r.connected && r.transport
    ensures c.transport && c.attempts < MaxReconnectAttempts ==>
      r.attempts == c.attempts + 1 && r.handle == Some(c.nextTimer)
      && r.pending == c.pending + [Timer(c.nextTimer, BackoffDelay(c.attempts))]
    ensures c.transport && c.attempts >= MaxReconnectAttempts ==> r == c.(connected := false)
    ensures !c.transport ==> r == c
    ensures r.(connected := c.connected, attempts := c.attempts, handle := c.handle, pending := c.pending,
               nextTimer := c.nextTimer) == c
  {
    if c.transport then HandleReconnectAsWritten(c.(connected := false)) else c
  }

  /** `onerror`: the transport is down; a reconnect is scheduled unless the ceiling is reached. */
  function OnError(c: Conn): (r: Conn)
    ensures c.transport ==> !r.connected && r.transport
    ensures c.transport && c.attempts < MaxReconnectAttempts ==>
      r.attempts == c.attempts + 1 && Timer(c.nextTimer, BackoffDelay(c.attempts)) in r.pending
    ensures c.transport && c.attempts >= MaxReconnectAttempts ==> r == c.(connected := false)
    ensures !c.transport ==> r == c
    ensures r.(connected := c.connected, attempts := c.attempts, handle := c.handle, pending := c.pending,
               nextTimer := c.nextTimer) == c
  {
    if c.transport then HandleReconnect(c.(connected := false)) else c
  }

  /** The pending timer with handle `id`, if it has not fired or been cleared. */
  predicate IsPending(c: Conn, id: nat) {
    exists t :: t in c.pending && t.id == id
  }

  /**
   * The timer `id` fires: it leaves the pending set and, when a url is
   * stored, calls `connect(url)`. The handle in `reconnectInterval` is not
   * reset. A cleared or already fired timer does nothing.
   */
  function FireTimer(c: Conn, id: nat): (r: Conn)
    ensures !IsPending(c, id) ==> r == c
    ensures IsPending(c, id) && c.url != "" ==> r.transport && r.url == c.url && r.attempts == c.attempts
    ensures IsPending(c, id) && c.url == "" ==>
      r.transport == c.transport && r.connected == c.connected && r.attempts == c.attempts && r.handle == c.handle
  {
    if !IsPending(c, id) then c
    else
      var c1 := c.(pending := Without(c.pending, id));
      if c1.url != "" then Connect(c1, c1.url) else c1
  }

  /**
   * The invariant the corrected state machine keeps: attempts stay within
   * the ceiling, `isConnected` implies a transport, and at most one reconnect
   * timer is pending, namely the one `reconnectInterval` holds.
   */
  predicate Valid(c: Conn) {
    && c.attempts <= MaxReconnectAttempts
    && (c.connected ==> c.transport)
    && |c.pending| <= 1
    && (|c.pending| == 1 ==> c.handle == Some(c.pending[0].id) && c.pending[0].id < c.nextTimer)
  }

  lemma InitialValid()
    ensures Valid(Initial)
  {
  }

  /** `Without` on a list of at most one timer. */
  lemma WithoutSingle(ts: seq<Timer>, id: nat)
    requires |ts| <= 1
    ensures |ts| == 1 && ts[0].id == id ==> Without(ts, id) == []
    ensures |ts| == 1 && ts[0].id != id ==> Without(ts, id) == ts
    ensures |ts| == 0 ==> Without(ts, id) == []
  {
    if |ts| == 1 {
      assert ts[1..] == [];
    }
  }

  /** After `disconnect` no transport, no connection and no pending timer remain. */
  lemma DisconnectCancelsAll(c: Conn)
    requires Valid(c)
    ensures var r := Disconnect(c); !r.transport && !r.connected && r.handle.None? && r.pending == []
    ensures Valid(Disconnect(c))
  {
    var closed := if c.transport then c.(transport := false, connected := false) else c;
    if |c.pending| == 1 {
      WithoutSingle(closed.pending, closed.handle.value);
    }
  }

  /** Calling `disconnect` twice is the same as calling it once. */
  lemma DisconnectIdempotent(c: Conn)
    ensures Disconnect(Disconnect(c)) == Disconnect(c)
  {
  }

  lemma ConnectValid(c: Conn, url: string)
    requires Valid(c)
    ensures Valid(Connect(c, url))
  {
    if c.transport {
      DisconnectCancelsAll(c);
    }
  }

  lemma OnOpenValid(c: Conn)
    requires Valid(c)
    ensures Valid(OnOpen(c))
  {
  }

  /**
   * A failure keeps the invariant, and when below the ceiling leaves exactly
   * one timer pending, the new one, with the backoff delay for the old count.
   */
  lemma OnErrorValid(c: Conn)
    requires Valid(c)
    ensures Valid(OnError(c))
    ensures c.transport && c.attempts < MaxReconnectAttempts ==>
      OnError(c).pending == [Timer(c.nextTimer, BackoffDelay(c.attempts))]
  {
    if c.transport && c.attempts < MaxReconnectAttempts {
      var d := c.(connected := false);
      if d.handle.Some? {
        WithoutSingle(d.pending, d.handle.value);
        if |d.pending| == 1 {
          assert d.pending[0].id == d.handle.value;
        }
      } else {
        assert |d.pending| == 0;
      }
    }
  }

  lemma FireTimerValid(c: Conn, id: nat)
    requires Valid(c)
    ensures Valid(FireTimer(c, id))
  {
    if IsPending(c, id) {
      WithoutSingle(c.pending, id);
      var c1 := c.(pending := Without(c.pending, id));
      assert c1.pending == [];
      if c1.url != "" {
        ConnectValid(c1, c1.url);
      }
    }
  }

  function Min(a: nat, b: nat): nat {
    if a <= b then a else b
  }

  /** The `n` backoff delays starting at attempt `a`: `2^a * 1000, 2^(a+1) * 1000, ...`. */
  function Backoffs(a: nat, n: nat): (r: seq<nat>)
    decreases n
    ensures |r| == n
  {
    if n == 0 then [] else [BackoffDelay(a)] + Backoffs(a + 1, n - 1)
  }

  /**
   * The delays scheduled by `k` consecutive failures, each followed by the
   * firing of the timer it scheduled (which reconnects to the stored url).
   */
  function FailureDelays(c: Conn, k: nat): seq<nat>
    decreases k
  {
    if k == 0 || !c.transport then []
    else
      var c1 := OnError(c);
      match NextTimer(c)
      case None => FailureDelays(c1, k - 1)
      case Some(t) => [t.delay] + FailureDelays(FireTimer(c1, t.id), k - 1)
  }

  /**
   * The delays `k` failures schedule from `a` attempts, one failure at a
   * time: a failure below the ceiling schedules `BackoffDelay(a)` and counts
   * one more attempt, a failure at the ceiling schedules nothing.
   */
  function Schedule(a: nat, k: nat): seq<nat>
    decreases k
  {
    if k == 0 then []
    else if a >= MaxReconnectAttempts then Schedule(a, k - 1)
    else [BackoffDelay(a)] + Schedule(a + 1, k - 1)
  }

  /** The connection's failures follow `Schedule` from its attempt counter. */
  lemma {:induction false} FailureDelaysSchedule(c: Conn, k: nat)
    requires Valid(c) && c.transport && c.url != ""
    ensures FailureDelays(c, k) == Schedule(c.attempts, k)
    decreases k
  {
    if k == 0 {
    } else if c.attempts >= MaxReconnectAttempts {
      CeilingFailure(c, k);
      FailureDelaysSchedule(OnError(c), k - 1);
    } else {
      var c2 := RetryCycle(c, k);
      FailureDelaysSchedule(c2, k - 1);
    }
  }

  /** `Schedule` in closed form: the first `maxReconnectAttempts - a` backoffs at most. */
  lemma {:induction false} ScheduleBackoffs(a: nat, k: nat)
    requires a <= MaxReconnectAttempts
    ensures Schedule(a, k) == Backoffs(a, Min(k, MaxReconnectAttempts - a))
    decreases k
  {
    if k == 0 {
    } else if a >= MaxReconnectAttempts {
      ScheduleBackoffs(a, k - 1);
    } else {
      ScheduleBackoffs(a + 1, k - 1);
    }
  }

  /**
   * From `a` attempts, `k` consecutive failures schedule the delays
   * `2^a * 1000, 2^(a+1) * 1000, ...`, one per failure until the ceiling,
   * and nothing after it: never more than `maxReconnectAttempts - a` timers.
   */
  lemma FailureDelaysBackoff(c: Conn, k: nat)
    requires Valid(c) && c.transport && c.url != ""
    ensures FailureDelays(c, k) == Backoffs(c.attempts, Min(k, MaxReconnectAttempts - c.attempts))
  {
    FailureDelaysSchedule(c, k);
    ScheduleBackoffs(c.attempts, k);
  }

  /**
   * With no timer pending, the source's `onerror` and the corrected one agree:
   * the handle the corrected version clears names no pending timer.
   */
  lemma OnErrorAsWrittenAgrees(c: Conn)
    requires c.pending == []
    ensures OnErrorAsWritten(c) == OnError(c)
  {
  }

  /** `FailureDelays` for the source's `onerror`. */
  function FailureDelaysAsWritten(c: Conn, k: nat): seq<nat>
    decreases k
  {
    if k == 0 || !c.transport then []
    else
      var c1 := OnErrorAsWritten(c);
      match NextTimer(c)
      case None => FailureDelaysAsWritten(c1, k - 1)
      case Some(t) => [t.delay] + FailureDelaysAsWritten(FireTimer(c1, t.id), k - 1)
  }

  /**
   * When every failure is retried before the next one, no second timer is
   * ever pending, so the source's machine schedules the same delays as the
   * corrected one.
   */
  lemma {:induction false} FailureDelaysAsWrittenAgree(c: Conn, k: nat)
    requires c.pending == []
    ensures FailureDelaysAsWritten(c, k) == FailureDelays(c, k)
    decreases k
  {
    if k > 0 && c.transport {
      OnErrorAsWrittenAgrees(c);
      var c1 := OnError(c);
      match NextTimer(c)
      case None =>
        assert c1 == c.(connected := false);
        FailureDelaysAsWrittenAgree(c1, k - 1);
      case Some(t) =>
        assert c1.pending == [t];
        assert IsPending(c1, t.id);
        var c2 := FireTimer(c1, t.id);
        assert Without([t], t.id) == [] by {
          assert [t][1..] == [];
        }
        assert c2.pending == [];
        FailureDelaysAsWrittenAgree(c2, k - 1);
    }
  }

  /**
   * The backoff schedule of the source as written: from a state with nothing
   * pending, `k` failures, each retried, schedule the first
   * `min(k, maxReconnectAttempts - a)` backoff delays.
   */
  lemma FailureDelaysAsWrittenBackoff(c: Conn, k: nat)
    requires Valid(c) && c.transport && c.url != "" && c.pending == []
    ensures FailureDelaysAsWritten(c, k) == Backoffs(c.attempts, Min(k, MaxReconnectAttempts - c.attempts))
  {
    FailureDelaysAsWrittenAgree(c, k);
    FailureDelaysBackoff(c, k);
  }

  /** At the ceiling a failure only drops the connected flag. */
  lemma CeilingFailure(c: Conn, k: nat)
    requires Valid(c) && c.transport && c.url != ""
    requires c.attempts >= MaxReconnectAttempts && k > 0
    ensures var c1 := OnError(c); Valid(c1) && c1.transport && c1.url == c.url && c1.attempts == c.attempts
    ensures FailureDelays(c, k) == FailureDelays(OnError(c), k - 1)
  {
    OnErrorValid(c);
  }

  /**
   * Below the ceiling, a failure followed by the firing of its timer
   * reconnects to the same url with the counter one higher.
   */
  lemma RetryCycle(c: Conn, k: nat) returns (c2: Conn)
    requires Valid(c) && c.transport && c.url != ""
    requires c.attempts < MaxReconnectAttempts && k > 0
    ensures Valid(c2) && c2.transport && c2.url == c.url && c2.attempts == c.attempts + 1
    ensures FailureDelays(c, k) == [BackoffDelay(c.attempts)] + FailureDelays(c2, k - 1)
  {
    var c1 := OnError(c);
    OnErrorValid(c);
    var t := NextTimer(c).value;
    assert c1.pending == [t];
    assert IsPending(c1, t.id);
    c2 := FireTimer(c1, t.id);
    FireTimerValid(c1, t.id);
  }

  /**
   * From a fresh open connection, five failures back off by 1, 2, 4, 8 and 16
   * seconds, and a sixth schedules nothing.
   */
  lemma SixFailuresFromOpen(url: string)
    requires url != ""
    ensures FailureDelays(OnOpen(Connect(Initial, url)), 6) == [1000, 2000, 4000, 8000, 16000]
  {
    var c := OnOpen(Connect(Initial, url));
    FailureDelaysBackoff(c, 6);
    assert BackoffDelay(0) == 1000;
    assert BackoffDelay(1) == 2000;
    assert BackoffDelay(2) == 4000;
    assert BackoffDelay(3) == 8000;
    assert BackoffDelay(4) == 16000;
  }

  /** The same 1, 2, 4, 8 and 16 second schedule for the source's `onerror`. */
  lemma SixFailuresFromOpenAsWritten(url: string)
    requires url != ""
    ensures FailureDelaysAsWritten(OnOpen(Connect(Initial, url)), 6) == [1000, 2000, 4000, 8000, 16000]
  {
    FailureDelaysAsWrittenAgree(OnOpen(Connect(Initial, url)), 6);
    SixFailuresFromOpen(url);
  }

  /**
   * Once the ceiling is reached, an explicit `connect` does not restore the
   * backoff: only `onopen` resets the counter, so a new transport that fails
   * before opening schedules no retry.
   */
  lemma ExhaustedUntilOpen(c: Conn, url: string)
    requires Valid(c) && c.attempts == MaxReconnectAttempts
    ensures var r := OnError(Connect(c, url)); r.pending == Connect(c, url).pending && !r.connected
    ensures OnOpen(Connect(c, url)).attempts == 0
  {
  }

  /**
   * The source's `handleReconnect` leaks a timer: two failures before the
   * first timer fires leave two timers pending, `disconnect` clears only the
   * second, and the first later fires and reconnects to the stored url.
   */
  lemma OrphanedTimerReconnects(url: string)
    requires url != ""
    ensures var c := Disconnect(OnErrorAsWritten(OnErrorAsWritten(Connect(Initial, url))));
      && !c.transport
      && c.pending == [Timer(1, 1000)]
      && FireTimer(c, 1).transport
      && FireTimer(c, 1).url == url
  {
    var c0 := Connect(Initial, url);
    var c1 := OnErrorAsWritten(c0);
    assert c1.pending == [Timer(1, 1000)];
    var c2 := OnErrorAsWritten(c1);
    assert c2.pending == [Timer(1, 1000), Timer(2, 2000)];
    assert c2.handle == Some(2);
    var c := Disconnect(c2);
    assert c.pending == Without([Timer(1, 1000), Timer(2, 2000)], 2);
    assert [Timer(1, 1000), Timer(2, 2000)][1..] == [Timer(2, 2000)];
    assert [Timer(2, 2000)][1..] == [];
    assert c.pending == [Timer(1, 1000)];
    assert IsPending(c, 1);
  }

  /**
   * The source's machine does not keep `Valid`: two failures before the first
   * timer fires leave two timers pending.
   */
  lemma AsWrittenBreaksValid(url: string)
    ensures !Valid(OnErrorAsWritten(OnErrorAsWritten(Connect(Initial, url))))
  {
    var c1 := OnErrorAsWritten(Connect(Initial, url));
    assert c1.pending == [Timer(1, 1000)];
    assert |OnErrorAsWritten(c1).pending| == 2;
  }

  /** With the handle cleared before rescheduling, the same sequence leaves nothing pending. */
  lemma DoubleFailureThenDisconnect(url: string)
    ensures Disconnect(OnError(OnError(Connect(Initial, url)))).pending == []
  {
    var c0 := Connect(Initial, url);
    InitialValid();
    ConnectValid(Initial, url);
    OnErrorValid(c0);
    OnErrorValid(OnError(c0));
    DisconnectCancelsAll(OnError(OnError(c0)));
  }
}

=== FILE: frames.dfy ===
/**
 * Frame handling: the `onmessage` handler and the named-event listeners that
 * `connect` installs on the event stream. Each ingesting listener drops
 * control frames, decodes, drops decoded control messages, and hands the
 * payload, with the channel's forced type if any, to `addNotification`.
 */
module Frames {
  import opened Options
  import opened Json
  import opened Classifier
  import opened Records
  import Store

  /**
   * What the stream does with an event of a given type. Events with no
   * `event:` field have type "message" and reach `onmessage`; "notification",
   * "alert" and "success" have ingesting listeners ("alert" and "success"
   * force the type). A frame named "open" or "error" is dispatched under that
   * name and so runs the `onopen` or `onerror` handler, exactly as the
   * transport's own events do. "heartbeat" and "ping" have listeners that do
   * nothing; any other type has no listener at all.
   */
  datatype Handler = Ingest(forced: Option<string>) | Opens | Fails | Silent

  function HandlerFor(eventType: string): (h: Handler)
    ensures h.Ingest? <==> eventType in {"message", "notification", "alert", "success"}
    ensures h.Ingest? && h.forced.Some? <==> eventType in {"alert", "success"}
    ensures eventType == "alert" ==> h == Ingest(Some("warning"))
    ensures eventType == "success" ==> h == Ingest(Some("success"))
    ensures h == Opens <==> eventType == "open"
    ensures h == Fails <==> eventType == "error"
  {
    if eventType == "message" || eventType == "notification" then Ingest(None)
    else if eventType == "alert" then Ingest(Some("warning"))
    else if eventType == "success" then Ingest(Some("success"))
    else if eventType == "open" then Opens
    else if eventType == "error" then Fails
    else Silent
  }

  /** How one frame ended. Every outcome but `Added` leaves the list alone. */
  datatype Outcome =
    | Unheard                       // no ingesting listener for the event type
    | ControlFrame                  // the raw string is a marker
    | Malformed                     // `JSON.parse` threw
    | ControlPayload                // the decoded value is a control message
    | NullPayload                   // `isHeartbeat(null)` threw; caught like a parse error
    | Added(record: Notification)

  /** The payload the listener passes on: the decoded value, with the forced type spread over it. */
  function Payload(data: Json, forced: Option<string>): (p: Json)
    requires !data.JNull?
    ensures !p.JNull?
  {
    match forced
    case None => data
    case Some(t) => Override(data, "type", JStr(t))
  }

  /**
   * One frame through its listener. `decode` stands for `JSON.parse`
   * (`None` when it throws); `freshId` and `stamp` are what `generateId` and
   * the clock would supply.
   */
  function Process(eventType: string, frame: string, decode: string -> Option<Json>,
                   freshId: string, stamp: Stamp): (o: Outcome)
    requires freshId != ""
    ensures o.Added? <==>
      && HandlerFor(eventType).Ingest?
      && !RawIsControl(frame)
      && decode(frame).Some?
      && IsHeartbeat(decode(frame).value) == Verdict(false)
    ensures o.Added? ==> !o.record.read && Truthy(o.record.id)
    ensures o.Added? && eventType == "alert" ==> o.record.kind == JStr("warning")
    ensures o.Added? && eventType == "success" ==> o.record.kind == JStr("success")
    ensures o.Added? && eventType in {"message", "notification"} ==>
      o.record.kind == Or(Get(decode(frame).value, "type"), DefaultKind)
    ensures o.Added? && HasTruthy(decode(frame).value, "id") ==>
      o.record.id == Get(decode(frame).value, "id").value
    ensures o.Added? ==>
      o.record == NewRecord(Payload(decode(frame).value, HandlerFor(eventType).forced), freshId, stamp)
  {
    match HandlerFor(eventType)
    case Opens | Fails | Silent => Unheard
    case Ingest(forced) =>
      if RawIsControl(frame) then ControlFrame
      else
        match decode(frame)
        case None => Malformed
        case Some(data) =>
          match IsHeartbeat(data)
          case Throws => NullPayload
          case Verdict(control) =>
            if control then ControlPayload
            else
              var p := Payload(data, forced);
              assert Get(p, "id") == Get(data, "id");
              Added(NewRecord(p, freshId, stamp))
  }

  /** The list after one frame. */
  function Apply(s: seq<Notification>, o: Outcome): (r: seq<Notification>)
    ensures o.Added? ==> r == Store.Add(s, o.record)
    ensures !o.Added? ==> r == s
  {
    if o.Added? then Store.Add(s, o.record) else s
  }

  /**
   * A frame either leaves the list as it was, or puts exactly one new unread
   * record at the head with every older record following in order, and
   * raises the unread count by exactly one.
   */
  lemma FrameEffect(s: seq<Notification>, eventType: string, frame: string,
                    decode: string -> Option<Json>, freshId: string, stamp: Stamp)
    requires freshId != ""
    ensures var o := Process(eventType, frame, decode, freshId, stamp);
      var r := Apply(s, o);
      if o.Added? then
        |r| == |s| + 1 && r[1..] == s && !r[0].read
        && Store.UnreadCount(r) == Store.UnreadCount(s) + 1
      else r == s && Store.UnreadCount(r) == Store.UnreadCount(s)
  {
    var o := Process(eventType, frame, decode, freshId, stamp);
    if o.Added? {
      Store.AddUnreadCount(s, o.record);
    }
  }

  /** Control frames, raw or decoded, and undecodable frames never reach the list. */
  lemma ControlAndMalformedDropped(s: seq<Notification>, eventType: string, frame: string,
                                   decode: string -> Option<Json>, freshId: string, stamp: Stamp)
    requires freshId != ""
    requires frame in Markers || decode(frame).None? || decode(frame) == Some(JNull)
      || (decode(frame).Some? && IsHeartbeat(decode(frame).value) == Verdict(true))
    ensures Apply(s, Process(eventType, frame, decode, freshId, stamp)) == s
  {
  }

  /** No listener adds a record for events outside the four ingesting channels. */
  lemma SilentChannels(eventType: string, frame: string, decode: string -> Option<Json>,
                       freshId: string, stamp: Stamp)
    requires freshId != ""
    requires eventType !in {"message", "notification", "alert", "success"}
    ensures Process(eventType, frame, decode, freshId, stamp) == Unheard
  {
  }

  /**
   * An "alert" frame `{"title":"Low stock","message":"Bin 4 empty"}` becomes an
   * unread warning at the head of the list.
   */
  lemma LowStockAlert(s: seq<Notification>, frame: string, decode: string -> Option<Json>,
                      freshId: string, stamp: Stamp)
    requires freshId != ""
    requires frame !in Markers
    requires decode(frame) == Some(JObj(map["title" := JStr("Low stock"), "message" := JStr("Bin 4 empty")]))
    ensures var r := Apply(s, Process("alert", frame, decode, freshId, stamp));
      |r| == |s| + 1 && r[0].kind == JStr("warning") && !r[0].read
      && r[0].title == Some(JStr("Low stock")) && r[0].message == Some(JStr("Bin 4 empty"))
      && r[0].id == JStr(freshId)
  {
    var data := decode(frame).value;
    assert IsHeartbeat(data) == Verdict(false) by {
      assert !MarkerField(data.fields, "type");
      assert !MarkerField(data.fields, "message");
    }
    var p := Payload(data, Some("warning"));
    assert Get(p, "title") == Some(JStr("Low stock")) && Get(p, "message") == Some(JStr("Bin 4 empty"));
    assert !HasTruthy(p, "id");
    assert Process("alert", frame, decode, freshId, stamp) == Added(NewRecord(p, freshId, stamp));
  }
}

=== FILE: json.dfy ===
/**
 * Decoded JSON values and the two JavaScript operations the pipeline applies
 * to them: property reads (`data.key`) and truthiness (`a || b`).
 */
module Json {
  import opened Options

  /**
   * A value `JSON.parse` can return. Numbers are kept as reals: only whether
   * a number is zero matters to the pipeline. Objects are maps because
   * `JSON.parse` keeps the last of duplicated keys.
   */
  datatype Json =
    | JNull
    | JBool(b: bool)
    | JNum(n: real)
    | JStr(s: string)
    | JArr(elems: seq<Json>)
    | JObj(fields: map<string, Json>)

  /** JavaScript `ToBoolean` restricted to JSON values. */
  predicate Truthy(v: Json) {
    match v
    case JNull => false
    case JBool(b) => b
    case JNum(n) => n != 0.0
    case JStr(s) => s != ""
    case JArr(_) => true
    case JObj(_) => true
  }

  /** `typeof v === 'object'`, which includes arrays and `null`. */
  predicate TypeofObject(v: Json) {
    v.JNull? || v.JArr? || v.JObj?
  }

  /**
   * The property read `v.key` for a non-index key, with `None` standing for
   * `undefined`. Only objects carry named own properties; strings, numbers,
   * booleans and arrays answer `undefined` for every key the pipeline reads
   * (`id`, `title`, `message`, `type`, `details`, `actions`, `relatedInfo`),
   * since none of these names lives on their prototypes. Reading a property
   * of `null` throws, so callers must rule it out.
   */
  function Get(v: Json, key: string): (r: Option<Json>)
    requires !v.JNull?
    ensures r.Some? <==> v.JObj? && key in v.fields
    ensures r.Some? ==> r.value == v.fields[key]
  {
    if v.JObj? && key in v.fields then Some(v.fields[key]) else None
  }

  /**
   * Whether JavaScript `ToString` throws on `v`. An object with an own
   * `toString` key shadows `Object.prototype.toString` with a value that is
   * not callable, and its `valueOf` yields no primitive either, so the
   * conversion throws a TypeError. An array converts through `join`, which
   * converts every element that is not `null`, so it throws exactly when an
   * element does. Every other JSON value converts.
   */
  predicate ToStringThrows(v: Json) {
    match v
    case JObj(fields) => "toString" in fields
    case JArr(elems) => exists i :: 0 <= i < |elems| && ToStringThrows(elems[i])
    case _ => false
  }

  /** `a || b` where `a` may be `undefined`. */
  function Or(a: Option<Json>, b: Json): Json {
    if a.Some? && Truthy(a.value) then a.value else b
  }

  /** An own property whose value is truthy, as tested by `data.key || …`. */
  predicate HasTruthy(v: Json, key: string)
    requires !v.JNull?
  {
    Get(v, key).Some? && Truthy(Get(v, key).value)
  }

  /**
   * `{ ...v, key: x }` as seen through named keys: the own properties of an
   * object are copied and `key` is overwritten. Spreading a string or array
   * also copies its index keys ("0", "1", ...); those are never read by the
   * pipeline and are not represented.
   */
  function Override(v: Json, key: string, x: Json): (r: Json)
    requires !v.JNull?
    ensures r.JObj?
    ensures Get(r, key) == Some(x)
    ensures forall k :: k != key ==> Get(r, k) == Get(v, k)
  {
    JObj((if v.JObj? then v.fields else map[])[key := x])
  }
}

=== FILE: options.dfy ===
/** The optional value used for JavaScript `undefined` and for "not found". */
module Options {

  datatype Option<+T> = None | Some(value: T)
}

=== FILE: presentation.dfy ===
/**
 * The presentation dispatcher `sendPushNotification` calls for every new
 * record: a native local notification on a native platform, a browser
 * notification otherwise. The platform calls themselves are not modelled;
 * the result describes what would be handed to them.
 */
module Presentation {
  import opened Options
  import opened Json
  import opened Records

  datatype Platform = Native | Web

  /** `Notification.permission` and the answers of `Notification.requestPermission()`. */
  datatype Permission = Granted | Denied | Undecided

  /** What the host environment answers when asked. */
  datatype Host = Host(
    platform: Platform,          // `Capacitor.isNativePlatform()`
    browserSupported: bool,      // `'Notification' in window`
    permission: Permission,      // `Notification.permission` at the call
    answer: Permission)          // what `requestPermission()` resolves to, if asked

  /** The fields of the local notification given to `LocalNotifications.schedule`. */
  datatype LocalSpec = LocalSpec(
    title: Option<Json>,
    body: Option<Json>,
    largeBody: Option<Json>,
    summaryText: string,
    extraId: Json,
    extraKind: Json,
    delayMs: nat,
    channelId: string)

  /** The fields of the browser `Notification` that is constructed. */
  datatype BrowserSpec = BrowserSpec(
    title: Option<Json>,
    body: Option<Json>,
    icon: string,
    tag: Json,
    dataId: Json,
    dataKind: Json,
    requireInteraction: bool,
    autoCloseMs: nat)

  /** How one presentation attempt ends. None of them affects the list or the connection. */
  datatype Dispatch =
    | NotReady                    // native, initialisation not completed: skipped
    | Scheduled(local: LocalSpec)
    | ScheduleFailed              // building the spec threw; caught and logged
    | Unsupported                 // no browser notifications
    | Shown(browser: BrowserSpec)
    | Refused                     // browser permission denied or not granted on request

  /** The delay before a scheduled local notification shows. */
  const LocalDelayMs: nat := 5000
  /** The browser notification closes itself after this long. */
  const AutoCloseMs: nat := 10000

  /** `toUpperCase` on one character, for the ASCII letters. */
  function UpperChar(c: char): (u: char)
    ensures 'a' <= c <= 'z' ==> u as int == c as int - 32
    ensures !('a' <= c <= 'z') ==> u == c
  {
    if 'a' <= c <= 'z' then (c as int - 32) as char else c
  }

  /** `toUpperCase`, character by character. */
  function Upper(s: string): (r: string)
    ensures |r| == |s|
    ensures forall i :: 0 <= i < |s| ==> r[i] == UpperChar(s[i])
  {
    if |s| == 0 then [] else [UpperChar(s[0])] + Upper(s[1..])
  }

  /** `` `${type.toUpperCase()} Alert` ``; `None` when `type` is not a string and the call throws. */
  function SummaryText(kind: Json): (r: Option<string>)
    ensures r.Some? <==> kind.JStr?
    ensures r.Some? ==> |r.value| == |kind.s| + 6 && r.value[|kind.s|..] == " Alert"
    ensures r.Some? ==> forall i :: 0 <= i < |kind.s| ==> r.value[i] == UpperChar(kind.s[i])
  {
    if kind.JStr? then Some(Upper(kind.s) + " Alert") else None
  }

  /** `details || message`: the long body falls back to the message when details are missing or empty. */
  function LargeBody(n: Notification): (r: Option<Json>)
    ensures n.details.Some? && Truthy(n.details.value) ==> r == n.details
    ensures !(n.details.Some? && Truthy(n.details.value)) ==> r == n.message
  {
    if n.details.Some? && Truthy(n.details.value) then n.details else n.message
  }

  /**
   * `sendNativeLocalNotification`: gated on the completed initialisation.
   * Building the schedule throws when `parseInt` cannot convert the id to a
   * string or the type has no `toUpperCase`; the throw is caught and nothing
   * is scheduled.
   */
  function SendNative(initialized: bool, n: Notification): (d: Dispatch)
    ensures d == NotReady <==> !initialized
    ensures initialized && n.kind.JStr? && !ToStringThrows(n.id) ==> d.Scheduled?
    ensures d == ScheduleFailed <==> initialized && (ToStringThrows(n.id) || !n.kind.JStr?)
    ensures d.Scheduled? ==>
      && d.local.title == n.title && d.local.body == n.message
      && d.local.largeBody == LargeBody(n)
      && d.local.extraId == n.id && d.local.extraKind == n.kind
      && d.local.delayMs == LocalDelayMs
      && Some(d.local.summaryText) == SummaryText(n.kind)
      && d.local.channelId == "factory-alerts"
  {
    if !initialized then NotReady
    else if ToStringThrows(n.id) then ScheduleFailed
    else
      match SummaryText(n.kind)
      case None => ScheduleFailed
      case Some(summary) =>
        Scheduled(LocalSpec(n.title, n.message, LargeBody(n), summary, n.id, n.kind,
                            LocalDelayMs, "factory-alerts"))
  }

  /** The browser notification built once permission is granted. */
  function BrowserSpecFor(n: Notification): (b: BrowserSpec)
    ensures b.tag == n.id && b.dataId == n.id && b.dataKind == n.kind
    ensures b.title == n.title && b.body == n.message
  {
    BrowserSpec(n.title, n.message, "/favicon.png", n.id, n.id, n.kind, true, AutoCloseMs)
  }

  /**
   * `showBrowserNotification`: shown when permission is granted; when
   * undecided, permission is requested and the notification shown once if the
   * answer is a grant; abandoned otherwise.
   */
  function ShowBrowser(host: Host, n: Notification): (d: Dispatch)
    ensures d.Shown? <==>
      host.browserSupported && (host.permission == Granted || (host.permission == Undecided && host.answer == Granted))
    ensures d.Shown? ==> d.browser == BrowserSpecFor(n)
    ensures d != Unsupported ==> host.browserSupported
    ensures host.browserSupported && !d.Shown? ==> d == Refused
  {
    if !host.browserSupported then Unsupported
    else
      match host.permission
      case Granted => Shown(BrowserSpecFor(n))
      case Undecided => if host.answer == Granted then Shown(BrowserSpecFor(n)) else Refused
      case Denied => Refused
  }

  /** `sendPushNotification`: the platform picks the channel; only the native one is gated. */
  function Present(host: Host, initialized: bool, n: Notification): (d: Dispatch)
    ensures host.platform == Native ==> d == SendNative(initialized, n)
    ensures host.platform == Web ==> d == ShowBrowser(host, n)
  {
    match host.platform
    case Native => SendNative(initialized, n)
    case Web => ShowBrowser(host, n)
  }

  /**
   * The gate only applies natively: before initialisation completes a native
   * send is skipped, while the browser channel proceeds regardless.
   */
  lemma GateOnlyNative(host: Host, n: Notification)
    ensures host.platform == Native ==> (Present(host, false, n) == NotReady)
    ensures host.platform == Web ==> Present(host, false, n) == Present(host, true, n)
    ensures Present(host, true, n) != NotReady
  {
  }

  /**
   * An id object with its own `toString` key, alone or nested in an array,
   * makes `parseInt(id)` throw, so a native send of a well-typed record
   * schedules nothing.
   */
  lemma ShadowedToStringFails(n: Notification, x: Json)
    requires n.kind == JStr("info")
    requires n.id == JObj(map["toString" := x]) || n.id == JArr([JNull, JObj(map["toString" := x])])
    ensures SendNative(true, n) == ScheduleFailed
  {
    if n.id.JArr? {
      assert ToStringThrows(n.id.elems[1]);
    }
  }

  /** An "alert" frame's record is announced with the summary "WARNING Alert". */
  lemma WarningSummary()
    ensures SummaryText(JStr("warning")) == Some("WARNING Alert")
  {
    var s, u := "warning", "WARNING";
    assert |s| == 7 && |u| == 7;
    assert s[0] == 'w' && s[1] == 'a' && s[2] == 'r' && s[3] == 'n' && s[4] == 'i' && s[5] == 'n' && s[6] == 'g';
    assert u[0] == 'W' && u[1] == 'A' && u[2] == 'R' && u[3] == 'N' && u[4] == 'I' && u[5] == 'N' && u[6] == 'G';
    UpperIs(s, u);
    assert u + " Alert" == "WARNING Alert";
  }

  /** The summary of a lower-case ASCII type is its upper-case form followed by " Alert". */
  lemma SummaryOfLowercase(s: string, t: string)
    requires |s| == |t|
    requires forall i :: 0 <= i < |s| ==> 'a' <= s[i] <= 'z' && t[i] as int == s[i] as int - 32
    ensures SummaryText(JStr(s)) == Some(t + " Alert")
  {
    UpperIs(s, t);
  }

  /** A lower-case ASCII word upper-cases letter by letter. */
  lemma UpperIs(s: string, t: string)
    requires |s| == |t|
    requires forall i :: 0 <= i < |s| ==> 'a' <= s[i] <= 'z' && t[i] as int == s[i] as int - 32
    ensures Upper(s) == t
  {
  }
}

=== FILE: records.dfy ===
/**
 * The canonical notification record and `addNotification`'s construction of
 * one from a decoded payload.
 */
module Records {
  import opened Options
  import opened Json

  /**
   * The `time` and `date` strings computed from the clock at creation. They
   * are opaque here and never recomputed.
   */
  datatype Stamp = Stamp(time: string, date: string)

  /**
   * A stored notification. Fields are the JSON values the payload carried:
   * the source copies them without validation, so `id` and `kind` (the
   * source's `type`) hold whatever truthy value arrived, and the optional
   * fields are `None` where the payload had `undefined`.
   */
  datatype Notification = Notification(
    id: Json,
    title: Option<Json>,
    message: Option<Json>,
    kind: Json,
    time: string,
    date: string,
    read: bool,
    details: Option<Json>,
    actions: Option<Json>,
    relatedInfo: Option<Json>)

  /** The type a record gets when the payload names none. */
  const DefaultKind: Json := JStr("info")

  /**
   * `addNotification(data)`'s record: `id` is `data.id || generateId()`,
   * `type` is `data.type || 'info'`, `read` is false and the display fields
   * are copied. `freshId` is the value `generateId` would return; it is only
   * used when the payload's id is missing or falsy.
   */
  function NewRecord(data: Json, freshId: string, stamp: Stamp): (n: Notification)
    requires !data.JNull?
    requires freshId != ""
    ensures !n.read
    ensures Truthy(n.id) && Truthy(n.kind)
    ensures HasTruthy(data, "id") ==> n.id == Get(data, "id").value
    ensures !HasTruthy(data, "id") ==> n.id == JStr(freshId)
    ensures HasTruthy(data, "type") ==> n.kind == Get(data, "type").value
    ensures !HasTruthy(data, "type") ==> n.kind == DefaultKind
    ensures n.title == Get(data, "title") && n.message == Get(data, "message")
    ensures n.details == Get(data, "details") && n.actions == Get(data, "actions")
    ensures n.relatedInfo == Get(data, "relatedInfo")
    ensures n.time == stamp.time && n.date == stamp.date
  {
    Notification(
      id := Or(Get(data, "id"), JStr(freshId)),
      title := Get(data, "title"),
      message := Get(data, "message"),
      kind := Or(Get(data, "type"), DefaultKind),
      time := stamp.time,
      date := stamp.date,
      read := false,
      details := Get(data, "details"),
      actions := Get(data, "actions"),
      relatedInfo := Get(data, "relatedInfo"))
  }

  /**
   * A channel that forces the type (`{ ...data, type: t }`) changes only the
   * record's type: id, contents and read flag are those the payload alone
   * would give.
   */
  lemma ForcedKindChangesOnlyKind(data: Json, t: string, freshId: string, stamp: Stamp)
    requires !data.JNull?
    requires freshId != "" && t != ""
    ensures NewRecord(Override(data, "type", JStr(t)), freshId, stamp)
         == NewRecord(data, freshId, stamp).(kind := JStr(t))
  {
    var forced := Override(data, "type", JStr(t));
    assert forall k :: k != "type" ==> Get(forced, k) == Get(data, k);
    assert Get(forced, "id") == Get(data, "id");
  }
}

=== FILE: service.dfy ===
/**
 * The notification service as one state machine: connection, list and the
 * initialisation gate, driven by transport callbacks, timers and the calls
 * the UI makes.
 */
module Service {
  import opened Options
  import opened Json
  import opened Records
  import Store
  import Frames
  import Connection
  import Presentation

  /** The service's state. The list is seeded by the constructor (mock data). */
  datatype Service = Service(conn: Connection.Conn, store: seq<Notification>, initialized: bool)

  /**
   * What the environment supplies to a step: the JSON decoder, the id
   * `generateId` would return, the clock's strings, and the host's answers.
   */
  datatype Env = Env(
    decode: string -> Option<Json>,
    freshId: string,
    stamp: Stamp,
    host: Presentation.Host)

  datatype Event =
    | Connect(url: string)                  // connect(url)
    | Disconnect                            // disconnect()
    | Opened                                // transport onopen
    | Failed                                // transport onerror
    | Frame(eventType: string, data: string) // a frame on the transport
    | TimerFired(handle: nat)               // a reconnect timer elapses
    | InitCompleted                         // initializePushNotifications finished
    | MarkAsRead(id: string)
    | MarkAllAsRead
    | RemoveNotification(id: string)
    | ClearAll

  /** The calls that change the list directly, as opposed to a frame adding to it. */
  predicate ListCall(e: Event) {
    e.MarkAsRead? || e.MarkAllAsRead? || e.RemoveNotification? || e.ClearAll?
  }

  /** The next state, and the presentation attempt a new record triggered, if any. */
  datatype Transition = Transition(next: Service, dispatched: Option<Presentation.Dispatch>)

  /** The constructed service: disconnected, not initialised, holding the seed list. */
  function Init(seed: seq<Notification>): (s: Service)
    ensures Connection.Valid(s.conn) && !s.conn.transport && s.store == seed && !s.initialized
    ensures s.conn == Connection.Initial
    ensures !s.conn.connected && s.conn.attempts == 0 && s.conn.handle.None? && s.conn.pending == []
  {
    Service(Connection.Initial, seed, false)
  }

  /** The service's state machine, with the reconnect handle cleared before rescheduling. */
  function Step(s: Service, e: Event, env: Env): (t: Transition)
    requires env.freshId != ""
    ensures t.dispatched.Some? ==> e.Frame? && s.conn.transport
  {
    match e
    case Connect(url) => Transition(s.(conn := Connection.Connect(s.conn, url)), None)
    case Disconnect => Transition(s.(conn := Connection.Disconnect(s.conn)), None)
    case Opened => Transition(s.(conn := Connection.OnOpen(s.conn)), None)
    case Failed => Transition(s.(conn := Connection.OnError(s.conn)), None)
    case TimerFired(id) => Transition(s.(conn := Connection.FireTimer(s.conn, id)), None)
    case InitCompleted => Transition(s.(initialized := true), None)
    case Frame(eventType, data) =>
      if !s.conn.transport then Transition(s, None)
      else if Frames.HandlerFor(eventType) == Frames.Opens then
        Transition(s.(conn := Connection.OnOpen(s.conn)), None)
      else if Frames.HandlerFor(eventType) == Frames.Fails then
        Transition(s.(conn := Connection.OnError(s.conn)), None)
      else
        var o := Frames.Process(eventType, data, env.decode, env.freshId, env.stamp);
        var next := s.(store := Frames.Apply(s.store, o));
        if o.Added? then Transition(next, Some(Presentation.Present(env.host, s.initialized, o.record)))
        else Transition(next, None)
    case MarkAsRead(id) => Transition(s.(store := Store.MarkAsRead(s.store, id)), None)
    case MarkAllAsRead => Transition(s.(store := Store.MarkAllAsRead(s.store)), None)
    case RemoveNotification(id) => Transition(s.(store := Store.Remove(s.store, id)), None)
    case ClearAll => Transition(s.(store := Store.ClearAll(s.store)), None)
  }

  /** Every step keeps the connection invariant. */
  lemma StepValid(s: Service, e: Event, env: Env)
    requires env.freshId != ""
    requires Connection.Valid(s.conn)
    ensures Connection.Valid(Step(s, e, env).next.conn)
  {
    match e
    case Connect(url) => Connection.ConnectValid(s.conn, url);
    case Disconnect => Connection.DisconnectCancelsAll(s.conn);
    case Opened => Connection.OnOpenValid(s.conn);
    case Failed => Connection.OnErrorValid(s.conn);
    case TimerFired(id) => Connection.FireTimerValid(s.conn, id);
    case Frame(eventType, _) =>
      if s.conn.transport && eventType == "open" {
        Connection.OnOpenValid(s.conn);
      } else if s.conn.transport && eventType == "error" {
        Connection.OnErrorValid(s.conn);
      }
    case _ =>
  }

  /** Which operation each event runs, and that only a frame can present anything. */
  lemma StepOperation(s: Service, e: Event, env: Env)
    requires env.freshId != ""
    ensures var t := Step(s, e, env);
      && (e.Connect? ==> t.next == s.(conn := Connection.Connect(s.conn, e.url)))
      && (e.Disconnect? ==> t.next == s.(conn := Connection.Disconnect(s.conn)))
      && (e.Opened? ==> t.next == s.(conn := Connection.OnOpen(s.conn)))
      && (e.Failed? ==> t.next == s.(conn := Connection.OnError(s.conn)))
      && (e.TimerFired? ==> t.next == s.(conn := Connection.FireTimer(s.conn, e.handle)))
      && (e.InitCompleted? ==> t.next == s.(initialized := true))
      && (e.MarkAsRead? ==> t.next == s.(store := Store.MarkAsRead(s.store, e.id)))
      && (e.MarkAllAsRead? ==> t.next == s.(store := Store.MarkAllAsRead(s.store)))
      && (e.RemoveNotification? ==> t.next == s.(store := Store.Remove(s.store, e.id)))
      && (e.ClearAll? ==> t.next == s.(store := Store.ClearAll(s.store)))
      && (e.Frame? && !s.conn.transport ==> t == Transition(s, None))
      && (!e.Frame? ==> t.dispatched.None?)
  {
  }

  /**
   * A frame on a live transport: "open" and "error" frames run the transport
   * handlers, every other frame goes through its listener, if any, to the list.
   */
  lemma StepFrameRoutes(s: Service, eventType: string, data: string, env: Env)
    requires env.freshId != ""
    requires s.conn.transport
    ensures eventType == "open" ==> Step(s, Frame(eventType, data), env) == Step(s, Opened, env)
    ensures eventType == "error" ==> Step(s, Frame(eventType, data), env) == Step(s, Failed, env)
    ensures eventType != "open" && eventType != "error" ==>
      var o := Frames.Process(eventType, data, env.decode, env.freshId, env.stamp);
      && Step(s, Frame(eventType, data), env).next == s.(store := Frames.Apply(s.store, o))
      && (Step(s, Frame(eventType, data), env).dispatched.Some? <==> o.Added?)
  {
  }

  /**
   * Separation of concerns: connection events leave the list alone, list
   * operations and frames other than "open" and "error" leave the connection
   * alone, and a new record is presented exactly when a frame added one, and
   * it is the record at the head.
   */
  lemma StepFrame(s: Service, e: Event, env: Env)
    requires env.freshId != ""
    ensures var t := Step(s, e, env);
      && (e.Connect? || e.Disconnect? || e.Opened? || e.Failed? || e.TimerFired? || e.InitCompleted?
          ==> t.next.store == s.store)
      && (ListCall(e) || (e.Frame? && e.eventType != "open" && e.eventType != "error")
          ==> t.next.conn == s.conn && t.next.initialized == s.initialized)
      && (t.dispatched.Some? <==> |t.next.store| == |s.store| + 1 && e.Frame?)
      && (t.dispatched.Some? ==>
            && t.next.store == [t.next.store[0]] + s.store && !t.next.store[0].read
            && t.dispatched.value == Presentation.Present(env.host, s.initialized, t.next.store[0]))
      && (t.dispatched.None? && !ListCall(e) ==> t.next.store == s.store)
      && t.next.initialized == (s.initialized || e.InitCompleted?)
  {
  }

  /**
   * After an explicit `disconnect`, no timer firing can bring the transport
   * back: only a new `connect` can.
   */
  lemma NoReconnectAfterDisconnect(s: Service, id: nat, env: Env)
    requires env.freshId != ""
    requires Connection.Valid(s.conn)
    ensures var d := Step(s, Disconnect, env).next;
      !Step(d, TimerFired(id), env).next.conn.transport
  {
    Connection.DisconnectCancelsAll(s.conn);
  }

  /** The number of frame events among the first `n` events of `es`. */
  function FramesBefore(es: seq<Event>, n: nat): nat
    requires n <= |es|
  {
    if n == 0 then 0 else FramesBefore(es, n - 1) + (if es[n - 1].Frame? then 1 else 0)
  }

  /**
   * One presentation: the index of the event that triggered it, the record
   * that was added, the initialisation gate at that moment, and the outcome.
   */
  datatype Presented = Presented(step: nat, record: Notification, gate: bool, dispatch: Presentation.Dispatch)

  /** The presented records, newest first, as `unshift` stacks them. */
  function Newest(ps: seq<Presented>): (r: seq<Notification>)
    ensures |r| == |ps|
  {
    if |ps| == 0 then [] else [ps[|ps| - 1].record] + Newest(ps[..|ps| - 1])
  }

  /** A presented record goes on top of the list, as `unshift` puts it there. */
  lemma NewestSnoc(ps: seq<Presented>, p: Presented, base: seq<Notification>)
    ensures Newest(ps + [p]) + base == [p.record] + (Newest(ps) + base)
  {
    assert (ps + [p])[..|ps|] == ps;
  }

  /**
   * Whether initialisation has completed before the `n`-th event, for a run
   * that started with the gate `init`: only `InitCompleted` sets it, and
   * nothing resets it.
   */
  function GateBefore(init: bool, es: seq<Event>, n: nat): bool
    requires n <= |es|
  {
    if n == 0 then init else GateBefore(init, es, n - 1) || es[n - 1].InitCompleted?
  }

  /**
   * `p` presents, unread, the record the frame at its step added, under that
   * step's host and the gate as it stood then.
   */
  predicate PresentsFrame(p: Presented, init: bool, es: seq<Event>, envs: seq<Env>)
    requires |envs| == |es|
  {
    && p.step < |es| && es[p.step].Frame? && !p.record.read
    && p.gate == GateBefore(init, es, p.step)
    && p.dispatch == Presentation.Present(envs[p.step].host, p.gate, p.record)
  }

  /**
   * A log of presentations: each satisfies `PresentsFrame`, their steps
   * strictly increase, and all come before `bound`. Stated one presentation
   * at a time, from the last.
   */
  predicate Log(ps: seq<Presented>, init: bool, es: seq<Event>, envs: seq<Env>, bound: nat)
    requires |envs| == |es|
    decreases |ps|
  {
    |ps| == 0 ||
      var last := ps[|ps| - 1];
      last.step < bound && PresentsFrame(last, init, es, envs) && Log(ps[..|ps| - 1], init, es, envs, last.step)
  }

  /** The presentation made at step `i` extends a log of the earlier steps. */
  lemma LogSnoc(ps: seq<Presented>, p: Presented, init: bool, es: seq<Event>, envs: seq<Env>)
    requires |envs| == |es|
    requires Log(ps, init, es, envs, p.step) && PresentsFrame(p, init, es, envs)
    ensures Log(ps + [p], init, es, envs, p.step + 1)
  {
    assert (ps + [p])[..|ps|] == ps;
  }

  /** `Log` as statements about each presentation and each pair. */
  lemma {:induction false} LogEach(ps: seq<Presented>, init: bool, es: seq<Event>, envs: seq<Env>, bound: nat)
    requires |envs| == |es|
    requires Log(ps, init, es, envs, bound)
    ensures forall k :: 0 <= k < |ps| ==> ps[k].step < bound && PresentsFrame(ps[k], init, es, envs)
    ensures forall k, l :: 0 <= k < l < |ps| ==> ps[k].step < ps[l].step
    decreases |ps|
  {
    if |ps| > 0 {
      var front, last := ps[..|ps| - 1], ps[|ps| - 1];
      LogEach(front, init, es, envs, last.step);
      assert forall k :: 0 <= k < |front| ==> ps[k] == front[k];
    }
  }

  /** `p`'s record is the one the listener built from the frame at its step. */
  predicate FromListener(p: Presented, es: seq<Event>, envs: seq<Env>)
    requires |envs| == |es|
  {
    && p.step < |es| && es[p.step].Frame? && envs[p.step].freshId != ""
    && var e, env := es[p.step], envs[p.step];
       var o := Frames.Process(e.eventType, e.data, env.decode, env.freshId, env.stamp);
       o.Added? && p.record == o.record
  }

  /** Every presentation in `ps` shows the record its frame's listener built. */
  predicate Sourced(ps: seq<Presented>, es: seq<Event>, envs: seq<Env>)
    requires |envs| == |es|
  {
    forall k {:trigger FromListener(ps[k], es, envs)} :: 0 <= k < |ps| ==> FromListener(ps[k], es, envs)
  }

  /** A presentation built by its frame's listener extends a sourced log. */
  lemma SourcedSnoc(ps: seq<Presented>, p: Presented, es: seq<Event>, envs: seq<Env>)
    requires |envs| == |es|
    requires Sourced(ps, es, envs) && FromListener(p, es, envs)
    ensures Sourced(ps + [p], es, envs)
  {
    forall k | 0 <= k < |ps| + 1
      ensures FromListener((ps + [p])[k], es, envs)
    {
      if k < |ps| {
        assert (ps + [p])[k] == ps[k];
      }
    }
  }

  /** Frames are counted cumulatively: a later prefix holds at least as many. */
  lemma {:induction false} FramesBeforeMonotone(es: seq<Event>, m: nat, n: nat)
    requires m <= n <= |es|
    ensures FramesBefore(es, m) <= FramesBefore(es, n)
    decreases n - m
  {
    if m < n {
      FramesBeforeMonotone(es, m, n - 1);
    }
  }

  /** A log below `bound` holds at most one presentation per frame event before `bound`. */
  lemma {:induction false} LogBound(ps: seq<Presented>, init: bool, es: seq<Event>, envs: seq<Env>, bound: nat)
    requires |envs| == |es| && bound <= |es|
    requires Log(ps, init, es, envs, bound)
    ensures |ps| <= FramesBefore(es, bound)
    decreases |ps|
  {
    if |ps| > 0 {
      var last := ps[|ps| - 1];
      LogBound(ps[..|ps| - 1], init, es, envs, last.step);
      FramesBeforeMonotone(es, last.step + 1, bound);
    }
  }

  /** None of the first `n` events of `es` changes the list directly. */
  predicate NoListCallsBefore(es: seq<Event>, n: nat)
    requires n <= |es|
  {
    n == 0 || (NoListCallsBefore(es, n - 1) && !ListCall(es[n - 1]))
  }

  /**
   * Handles the `i`-th event of `es` with the environment `envs[i]`: the next
   * state and, when a frame added a record, its presentation.
   */
  method Advance(s: Service, init: bool, es: seq<Event>, envs: seq<Env>, i: nat)
    returns (next: Service, p: Option<Presented>)
    requires i < |es| == |envs| && envs[i].freshId != ""
    requires Connection.Valid(s.conn)
    requires s.initialized == GateBefore(init, es, i)
    ensures Connection.Valid(next.conn)
    ensures |next.store| <= |s.store| + (if es[i].Frame? then 1 else 0)
    ensures next.initialized == (s.initialized || es[i].InitCompleted?)
    ensures p.Some? ==>
      && es[i].Frame? && p.value.step == i && !p.value.record.read
      && next.store == [p.value.record] + s.store
      && p.value.gate == s.initialized
      && p.value.dispatch == Presentation.Present(envs[i].host, p.value.gate, p.value.record)
    ensures p.Some? ==> PresentsFrame(p.value, init, es, envs) && FromListener(p.value, es, envs)
    ensures p.None? && !ListCall(es[i]) ==> next.store == s.store
  {
    var e, env := es[i], envs[i];
    var t := Step(s, e, env);
    StepValid(s, e, env);
    StepFrame(s, e, env);
    StoreGrowth(s, e, env);
    if e.Frame? && s.conn.transport {
      StepFrameRoutes(s, e.eventType, e.data, env);
    }
    next := t.next;
    p := if t.dispatched.Some? then Some(Presented(i, t.next.store[0], s.initialized, t.dispatched.value)) else None;
  }

  /**
   * The presentation logs and the list after event `i`, from those before it
   * and what handling event `i` produced.
   */
  lemma Record(base: seq<Notification>, init: bool, es: seq<Event>, envs: seq<Env>, i: nat,
               shown: seq<Presented>, p: Option<Presented>, store: seq<Notification>, next: seq<Notification>)
    requires |envs| == |es| && i < |es|
    requires Log(shown, init, es, envs, i) && Sourced(shown, es, envs)
    requires NoListCallsBefore(es, i) ==> store == Newest(shown) + base
    requires p.Some? ==>
      && p.value.step == i && PresentsFrame(p.value, init, es, envs) && FromListener(p.value, es, envs)
      && next == [p.value.record] + store
    requires p.None? && !ListCall(es[i]) ==> next == store
    ensures var grown := if p.Some? then shown + [p.value] else shown;
      && Log(grown, init, es, envs, i + 1) && Sourced(grown, es, envs)
      && (NoListCallsBefore(es, i + 1) ==> next == Newest(grown) + base)
  {
    if p.Some? {
      NewestSnoc(shown, p.value, base);
      LogSnoc(shown, p.value, init, es, envs);
      SourcedSnoc(shown, p.value, es, envs);
    }
  }

  /**
   * Handles the `i`-th event of a run and records its presentation, if any:
   * what `Run` keeps true before each event is true again after it.
   */
  method Extend(s0: Service, es: seq<Event>, envs: seq<Env>, i: nat, s: Service, shown: seq<Presented>)
    returns (next: Service, grown: seq<Presented>)
    requires i < |es| == |envs| && envs[i].freshId != ""
    requires Connection.Valid(s.conn)
    requires |s.store| <= |s0.store| + FramesBefore(es, i)
    requires s.initialized == GateBefore(s0.initialized, es, i)
    requires Log(shown, s0.initialized, es, envs, i)
    requires Sourced(shown, es, envs)
    requires NoListCallsBefore(es, i) ==> s.store == Newest(shown) + s0.store
    ensures Connection.Valid(next.conn)
    ensures |next.store| <= |s0.store| + FramesBefore(es, i + 1)
    ensures next.initialized == GateBefore(s0.initialized, es, i + 1)
    ensures Log(grown, s0.initialized, es, envs, i + 1)
    ensures Sourced(grown, es, envs)
    ensures NoListCallsBefore(es, i + 1) ==> next.store == Newest(grown) + s0.store
  {
    var p;
    next, p := Advance(s, s0.initialized, es, envs, i);
    Record(s0.store, s0.initialized, es, envs, i, shown, p, s.store, next.store);
    grown := if p.Some? then shown + [p.value] else shown;
  }

  /**
   * Runs the service over a sequence of events, the `i`-th handled with the
   * environment `envs[i]`, collecting the presentations. The connection
   * invariant holds throughout. The presentations form a `Log`: by `LogEach`
   * every one comes from a distinct frame, in order, and presents the unread
   * record that frame added under the gate as it stood at that step, and by
   * `LogBound` there are at most as many as there are frames. They are
   * `Sourced`: each record is the one its frame's listener built. When no event
   * changes the list directly, the list is exactly the presented records,
   * newest first, in front of the initial list, so every record added is
   * presented exactly once.
   */
  method Run(s0: Service, es: seq<Event>, envs: seq<Env>) returns (s: Service, shown: seq<Presented>)
    requires |envs| == |es|
    requires forall i :: 0 <= i < |envs| ==> envs[i].freshId != ""
    requires Connection.Valid(s0.conn)
    ensures NoListCallsBefore(es, |es|) ==> s.store == Newest(shown) + s0.store
    ensures Connection.Valid(s.conn)
    ensures s.conn.attempts <= Connection.MaxReconnectAttempts
    ensures |s.store| <= |s0.store| + FramesBefore(es, |es|)
    ensures Log(shown, s0.initialized, es, envs, |es|)
    ensures Sourced(shown, es, envs)
  {
    s := s0;
    shown := [];
    var i := 0;
    while i < |es|
      invariant 0 <= i <= |es|
      invariant Connection.Valid(s.conn)
      invariant |s.store| <= |s0.store| + FramesBefore(es, i)
      invariant s.initialized == GateBefore(s0.initialized, es, i)
      invariant Log(shown, s0.initialized, es, envs, i)
      invariant Sourced(shown, es, envs)
      invariant NoListCallsBefore(es, i) ==> s.store == Newest(shown) + s0.store
    {
      s, shown := Extend(s0, es, envs, i, s, shown);
      i := i + 1;
    }
  }

  /** Only a frame can lengthen the list, and by one record at most. */
  lemma StoreGrowth(s: Service, e: Event, env: Env)
    requires env.freshId != ""
    ensures |Step(s, e, env).next.store| <= |s.store| + (if e.Frame? then 1 else 0)
  {
  }
}

=== FILE: store.dfy ===
/**
 * The in-memory notification list, newest first, and its operations. Ids are
 * not unique: lookups by id act on the FIRST (newest) match, as
 * `Array.prototype.find` and `findIndex` do.
 */
module Store {
  import opened Options
  import opened Json
  import opened Records

  /** `n.id === id` for a string key. */
  predicate HasId(n: Notification, id: string) {
    n.id == JStr(id)
  }

  /** Some record in `s` carries `id`. */
  predicate Contains(s: seq<Notification>, id: string) {
    exists j :: 0 <= j < |s| && HasId(s[j], id)
  }

  /** `findIndex(n => n.id === id)`, with `None` for -1. */
  function FindIndex(s: seq<Notification>, id: string): (r: Option<nat>)
    ensures r.Some? ==> r.value < |s| && HasId(s[r.value], id)
    ensures r.Some? ==> forall j :: 0 <= j < r.value ==> !HasId(s[j], id)
    ensures r.None? <==> !Contains(s, id)
  {
    if |s| == 0 then None
    else if HasId(s[0], id) then Some(0)
    else
      match FindIndex(s[1..], id)
      case None => None
      case Some(k) => Some(k + 1)
  }

  /** `add`: the `unshift` in `addNotification`. */
  function Add(s: seq<Notification>, n: Notification): (r: seq<Notification>)
    ensures |r| == |s| + 1 && r[0] == n && r[1..] == s
  {
    [n] + s
  }

  /** `getNotificationById(id)`: the first record carrying `id`. */
  function GetById(s: seq<Notification>, id: string): (r: Option<Notification>)
    ensures r.Some? <==> Contains(s, id)
    ensures r.Some? ==> HasId(r.value, id) && r.value in s
    ensures r.Some? ==> exists i :: 0 <= i < |s| && s[i] == r.value && forall j :: 0 <= j < i ==> !HasId(s[j], id)
  {
    match FindIndex(s, id)
    case None => None
    case Some(i) => Some(s[i])
  }

  /** `markAsRead(id)`: sets `read` on the first match; no-op when `id` is absent. */
  function MarkAsRead(s: seq<Notification>, id: string): (r: seq<Notification>)
    ensures |r| == |s|
    ensures !Contains(s, id) ==> r == s
    ensures Contains(s, id) ==>
      var i := FindIndex(s, id).value;
      r[i] == s[i].(read := true) && forall j :: 0 <= j < |s| && j != i ==> r[j] == s[j]
  {
    match FindIndex(s, id)
    case None => s
    case Some(i) => s[i := s[i].(read := true)]
  }

  /** `markAllAsRead()`: sets `read` on every record. */
  function MarkAllAsRead(s: seq<Notification>): (r: seq<Notification>)
    ensures |r| == |s|
    ensures forall i :: 0 <= i < |s| ==> r[i] == s[i].(read := true)
  {
    seq(|s|, i requires 0 <= i < |s| => s[i].(read := true))
  }

  /** `removeNotification(id)`: `splice`s out the first match; no-op when `id` is absent. */
  function Remove(s: seq<Notification>, id: string): (r: seq<Notification>)
    ensures |r| == |s| - 1 <==> Contains(s, id)
    ensures !Contains(s, id) ==> r == s
    ensures Contains(s, id) ==>
      var i := FindIndex(s, id).value;
      r == s[..i] + s[i + 1..] && multiset(r) + multiset{s[i]} == multiset(s)
  {
    match FindIndex(s, id)
    case None => s
    case Some(i) =>
      assert s == s[..i] + [s[i]] + s[i + 1..];
      s[..i] + s[i + 1..]
  }

  /** `clearAll()`. */
  function ClearAll(s: seq<Notification>): (r: seq<Notification>)
    ensures |r| == 0
  {
    []
  }

  /** `filter(n => !n.read)`. */
  function Unread(s: seq<Notification>): (r: seq<Notification>)
    ensures |r| <= |s|
    ensures forall n :: n in r ==> n in s && !n.read
  {
    if |s| == 0 then []
    else if s[0].read then Unread(s[1..])
    else [s[0]] + Unread(s[1..])
  }

  /** `getUnreadCount()`: the length of the filtered list. */
  function UnreadCount(s: seq<Notification>): (r: nat)
    ensures r <= |s|
  {
    |Unread(s)|
  }

  /** The positions of unread records: the reference the count is checked against. */
  ghost function UnreadPositions(s: seq<Notification>): set<nat> {
    set i: nat | i < |s| && !s[i].read
  }

  /** Filtering distributes over appending one record at the end. */
  lemma {:induction false} UnreadSnoc(s: seq<Notification>, n: Notification)
    ensures Unread(s + [n]) == Unread(s) + (if n.read then [] else [n])
  {
    if |s| == 0 {
      assert s + [n] == [n];
      assert ([n])[1..] == [];
    } else {
      assert (s + [n])[0] == s[0];
      assert (s + [n])[1..] == s[1..] + [n];
      UnreadSnoc(s[1..], n);
    }
  }

  /** The unread count is the number of positions holding an unread record. */
  lemma {:induction false} UnreadCountIsPositions(s: seq<Notification>)
    ensures UnreadCount(s) == |UnreadPositions(s)|
  {
    if |s| == 0 {
      assert UnreadPositions(s) == {};
    } else {
      var p := s[..|s| - 1];
      var n := s[|s| - 1];
      assert s == p + [n];
      UnreadSnoc(p, n);
      UnreadCountIsPositions(p);
      var last: set<nat> := if n.read then {} else {|s| - 1};
      assert UnreadPositions(s) == UnreadPositions(p) + last;
      assert UnreadPositions(p) !! last;
    }
  }

  /** Adding a record grows the count by one exactly when the record is unread. */
  lemma AddUnreadCount(s: seq<Notification>, n: Notification)
    ensures UnreadCount(Add(s, n)) == UnreadCount(s) + (if n.read then 0 else 1)
  {
    assert Add(s, n)[1..] == s;
  }

  /** The first-match rule: a record added with `id` shadows every older one. */
  lemma AddShadows(s: seq<Notification>, n: Notification, id: string)
    requires HasId(n, id)
    ensures GetById(Add(s, n), id) == Some(n)
    ensures FindIndex(Add(s, n), id) == Some(0)
  {
  }

  /** After `markAsRead(id)`, looking `id` up finds a read record: the same one, now read. */
  lemma MarkAsReadThenGet(s: seq<Notification>, id: string)
    ensures GetById(MarkAsRead(s, id), id).Some? <==> Contains(s, id)
    ensures Contains(s, id) ==>
      GetById(MarkAsRead(s, id), id) == Some(GetById(s, id).value.(read := true))
  {
    if Contains(s, id) {
      var i := FindIndex(s, id).value;
      var r := MarkAsRead(s, id);
      assert HasId(r[i], id);
      assert Contains(r, id);
    }
  }

  /** `markAsRead` lowers the unread count by one exactly when the first match was unread. */
  lemma MarkAsReadUnreadCount(s: seq<Notification>, id: string)
    ensures UnreadCount(MarkAsRead(s, id)) ==
      UnreadCount(s) - (if Contains(s, id) && !GetById(s, id).value.read then 1 else 0)
  {
    var r := MarkAsRead(s, id);
    UnreadCountIsPositions(s);
    UnreadCountIsPositions(r);
    if Contains(s, id) {
      var i := FindIndex(s, id).value;
      assert UnreadPositions(r) == UnreadPositions(s) - {i};
    }
  }

  /** After `markAllAsRead`, nothing is unread. */
  lemma MarkAllAsReadClearsUnread(s: seq<Notification>)
    ensures UnreadCount(MarkAllAsRead(s)) == 0
    ensures forall n :: n in MarkAllAsRead(s) ==> n.read
  {
    var r := MarkAllAsRead(s);
    UnreadCountIsPositions(r);
    assert UnreadPositions(r) == {};
  }

  /** After `clearAll`, the list is empty and nothing is unread. */
  lemma ClearAllEmpties(s: seq<Notification>)
    ensures ClearAll(s) == [] && UnreadCount(ClearAll(s)) == 0
  {
  }

  /**
   * Removing the first match lowers the unread count by one exactly when that
   * record was unread, and no other record is affected.
   */
  lemma RemoveUnreadCount(s: seq<Notification>, id: string)
    ensures UnreadCount(Remove(s, id)) ==
      UnreadCount(s) - (if Contains(s, id) && !GetById(s, id).value.read then 1 else 0)
  {
    if Contains(s, id) {
      var i := FindIndex(s, id).value;
      assert s == s[..i] + [s[i]] + s[i + 1..];
      UnreadSplice(s[..i], s[i], s[i + 1..]);
    }
  }

  /** Taking one record out of a list takes it out of the unread filter too, if it was unread. */
  lemma UnreadSplice(front: seq<Notification>, x: Notification, back: seq<Notification>)
    ensures |Unread(front + [x] + back)| == |Unread(front + back)| + (if x.read then 0 else 1)
  {
    assert front + [x] + back == front + ([x] + back);
    assert ([x] + back)[1..] == back;
    UnreadConcat(front, [x] + back);
    UnreadConcat(front, back);
  }

  /** Filtering distributes over concatenation. */
  lemma {:induction false} UnreadConcat(a: seq<Notification>, b: seq<Notification>)
    ensures Unread(a + b) == Unread(a) + Unread(b)
  {
    if |a| == 0 {
      assert a + b == b;
    } else {
      assert (a + b)[0] == a[0];
      assert (a + b)[1..] == a[1..] + b;
      UnreadConcat(a[1..], b);
    }
  }

  /** When `id` is held by at most one record, removing it leaves no record with `id`. */
  lemma RemoveUniqueIdGone(s: seq<Notification>, id: string)
    requires forall i, j :: 0 <= i < j < |s| && HasId(s[i], id) ==> !HasId(s[j], id)
    ensures !Contains(Remove(s, id), id)
  {
    if Contains(s, id) {
      var i := FindIndex(s, id).value;
      var r := Remove(s, id);
      forall j | 0 <= j < |r|
        ensures !HasId(r[j], id)
      {
        if j >= i { assert r[j] == s[j + 1]; }
      }
    }
  }

  /** `markAllAsRead` is idempotent and keeps every id in place. */
  lemma MarkAllAsReadIdempotent(s: seq<Notification>)
    ensures MarkAllAsRead(MarkAllAsRead(s)) == MarkAllAsRead(s)
    ensures forall i :: 0 <= i < |s| ==> MarkAllAsRead(s)[i].id == s[i].id
  {
  }
}
